=== FILE: README.md ===
# Farm dashboard front end — a Dafny model

This project models the client-side rules of a small farm-management
dashboard written in React and TypeScript. The dashboard has a products list,
an actions ledger (buys and other actions, each with an income, an outcome and
a running balance), a statistics page, two balance widgets and a shared HTTP
client. The server and the rendering are not part of the model. What is
modelled is the logic inside the components:

- **Filter bags and query strings** (`FilterBag`, `SearchParams`,
  `UrlEncoding`, `ListQuery`). Each list page keeps its filters in an object
  whose insertion order is the order of the query string. `buildSearchParams`
  walks that object. It skips empty values. It skips `searchFields` unless
  `searchKey` has a non-blank text. It spreads arrays into one pair per
  element. It encodes every name and value twice: first `encodeURIComponent`,
  then `URLSearchParams`. The page number shown and the `page` entry sent are
  two separate states.
- **Page handlers** (`ActionsPage`, `ProductsPage`). These cover the column
  filters, the search box, the reset button and the page change. They also
  cover the local list edits after add, update and delete, and the way a
  fetch reply is stored.
- **Pagination** (`Pagination`). This covers the page count for a total, the
  numbered links, the previous/next buttons and the highlighted link.
- **HTTP interceptors** (`ApiInterceptors`). The token header, the success and
  error toasts, and the logout on status 401.
- **Statistics** (`StatisticsPage`). The request parameters, the error text
  fallback chain, the state a fetch leaves behind and the default month text.
- **Display helpers**:
  - `ActionDetail` for the detail dialog;
  - `BalanceHeader` and `BalanceDisplay` for the balance colours, status text
    and fetch state (with `BalanceSign` for the shared sign);
  - `DashboardLayout` for the highlighted navigation tab.

The slice of JavaScript semantics the code relies on is modelled explicitly in
`JsValues`: truthiness, `a || b`, `a?.b`, and a property read of `null` or
`undefined` throwing. String built-ins are in `Strings`: `trim`, `String(n)`,
`padStart` and `toLowerCase`.

The model follows the code where it is surprising:
- a total of 0 gives 0 pages;
- the actions page deletes by comparing `id` with the `_id` its delete button
  passes, while the products page compares `_id` with the `id` its table
  passes;
- the products page does not clear `editingProduct` after a save;
- resetting the actions filters puts `page` back to 1 without touching the
  page number shown.

## Model

| member | source | states |
|---|---|---|
| `FilterBag.Lookup` | src/pages/ActionsPage.tsx:67 | A property read of the filters object: absent exactly when the key is not a key of the bag; in a bag with distinct keys it is that key's entry. |
| `FilterBag.Set` | src/pages/ActionsPage.tsx:267-270 | Object spread `{...prev, [k]: v}` for the non-numeric keys the pages use: an existing key keeps its position, a new key goes last, the key reads back as `v`, every other key reads as before, and distinct keys stay distinct. |
| `FilterBag.SetInPlace` | src/pages/ActionsPage.tsx:267-270 | Spreading over a key the object already has rewrites that one entry where it stands and changes nothing else. |
| `SearchParams.HasSearch` | src/pages/ActionsPage.tsx:67 | `Boolean(filters.searchKey?.trim())`: throws exactly when `searchKey` holds a number or an array; true exactly when it holds a string that is not all whitespace. |
| `SearchParams.EntryPairs` | src/pages/ActionsPage.tsx:71-94 | One entry yields no pair exactly when it is skipped (an empty value, or `searchFields` without a search); an array yields one pair per element in order; a string or number yields one pair with its text; every pair carries the entry's key. |
| `SearchParams.RawPairs` | src/pages/ActionsPage.tsx:69-95 | The pairs of the whole bag: every pair is named by a key of the bag, and without a search no pair is named `searchFields`. |
| `SearchParams.RawPairsAppend` | src/pages/ActionsPage.tsx:69 | Entries are visited in order: the pairs of a concatenated bag are those of the first part followed by those of the second. |
| `SearchParams.RawPairsOfKey` | src/pages/ActionsPage.tsx:69-95 | With distinct keys, the pairs named `k` are exactly those of `k`'s own entry, and none when `k` is absent. |
| `SearchParams.SilentEntries` | src/pages/ActionsPage.tsx:73-80 | A run of skipped entries adds no pair at all. |
| `SearchParams.QueryStringAppend` | src/pages/ActionsPage.tsx:97 | Appending more pairs extends the serialised string after one `&`. |
| `SearchParams.QueryStringOne` | src/pages/ActionsPage.tsx:83-93 | A pair of letters, digits and `*-._` appears in the query as `name=value`, unchanged by both encoders. |
| `SearchParams.BuildSearchParams` | src/pages/ActionsPage.tsx:64-98 | `buildSearchParams` fails exactly when reading the search text throws; otherwise the query it returns is empty exactly when every entry of the bag is skipped. |
| `SearchParams.NoPairsIffSilent` | src/pages/ActionsPage.tsx:69-95 | A bag appends no pair at all exactly when each of its entries is skipped. |
| `SearchParams.QueryStringEmpty` | src/pages/ActionsPage.tsx:97 | `toString()` is empty exactly when nothing was appended, since every pair carries an `=`. |
| `SearchParams.SkippedEntryChangesNothing` | src/pages/ActionsPage.tsx:75-80 | An entry with an empty value, under any key but `searchKey`, can be taken out of the bag, wherever it stands, without changing the query. |
| `UrlEncoding.Utf8RoundTrip` | src/pages/ActionsPage.tsx:83 | The UTF-8 bytes `encodeURIComponent` percent-encodes for an Arabic or any other character decode back to that character. |
| `UrlEncoding.EncodeUriComponent` | src/pages/ActionsPage.tsx:83 | `encodeURIComponent`: the identity on unreserved characters; its output holds only unreserved characters and `%`. |
| `UrlEncoding.FormUrlEncode` | src/pages/ActionsPage.tsx:97 | `URLSearchParams` serialisation: the identity on form-safe text; its output holds only form-safe characters, `%` and `+`. |
| `UrlEncoding.EncIdentityOnSafe` | src/pages/ActionsPage.tsx:82-83 | On letters, digits and `*-._` the double encoding changes nothing. |
| `UrlEncoding.SpaceEncodedTwice` | src/pages/ActionsPage.tsx:82-83 | The key is encoded once by the page and again by `URLSearchParams`: a space is sent as `%2520`, not `%20`. |
| `UrlEncoding.TildeEncodedOnce` | src/pages/ActionsPage.tsx:87 | `~` survives `encodeURIComponent` but not the form serializer: it is sent as `%7E`. |
| `Strings.Trim` | src/pages/ActionsPage.tsx:67 | `trim()`: a slice of the input with a blank prefix and a blank suffix cut off and no whitespace at either end; empty exactly when the input is all whitespace. |
| `Strings.NatToStringRoundTrip` | src/pages/ActionsPage.tsx:93 | Reading back the digits `String(n)` writes gives `n`. |
| `Strings.IntToString` | src/pages/ActionsPage.tsx:93 | `String(n)`: a minus sign exactly for negatives, followed by digits that read back as the magnitude, with no leading zero. |
| `Strings.PadStart` | src/pages/StatisticsPage.tsx:63 | `padStart(width, fill)`: length is the larger of the two, the input is the suffix, and everything before it is the filler. |
| `Strings.ToLower` | src/services/api.ts:28 | `toLowerCase()` on ASCII: same length, each upper-case letter mapped down and every other character kept. |
| `ListQuery.ChangePage` | src/pages/ActionsPage.tsx:425-428 | The page callback updates both the shown page and the `page` entry, leaving them in step; every other filter and every key position stays. |
| `ListQuery.SetFilter` | src/pages/ActionsPage.tsx:267-270 | Setting one filter changes exactly that key; the shown page and the `page` entry stay, so whether they agree is unchanged. |
| `ListQuery.PageSizeOnly` | src/pages/ActionsPage.tsx:52-63 | A bag that starts with `page` 1 and `size` 10 and has nothing else to send serialises to `page=1&size=10`. |
| `ListEdits.ReplaceWhere` | src/pages/ActionsPage.tsx:129 | `map(a => hit ? y : a)`: same length; matching rows become the reply, the others stay in place. |
| `ListEdits.Keep` | src/pages/ActionsPage.tsx:172 | `filter`: the survivors are rows of the input that pass, every passing row survives, and if all pass the list is unchanged. |
| `ListEdits.KeepConcat` | src/pages/ActionsPage.tsx:172 | Filtering distributes over concatenation, so the survivors keep their order. |
| `ListEdits.Append` | src/pages/ActionsPage.tsx:134 | `[...xs, y]`: one longer, `y` last, the old rows untouched. |
| `ListEdits.FindFirst` | src/pages/ActionsPage.tsx:198 | `find`: none exactly when no row matches; otherwise a matching row with no match before it. |
| `ActionsPage.InitialKeysUnique` | src/pages/ActionsPage.tsx:52-63 | The initial filters object has ten distinct keys. |
| `ActionsPage.OnColumnFilter` | src/pages/ActionsPage.tsx:266-270 | A column filter sets its own key to the chosen text and leaves every other key, `page` included, and the shown page as they were. |
| `ActionsPage.Reset` | src/pages/ActionsPage.tsx:236-244 | Reset installs `page` 1, `size` 10, empty filters and no `searchFields`; the shown page is untouched, so the two agree only if it was already 1. |
| `ActionsPage.InitialQueryString` | src/pages/ActionsPage.tsx:52-98 | The first fetch sends `page=1&size=10`: the empty filters and the unsearched `searchFields` stay back. |
| `ActionsPage.ResetQueryString` | src/pages/ActionsPage.tsx:236-244 | After a reset the fetch sends `page=1&size=10`, whatever the state before. |
| `ActionsPage.TypeFilterQueryString` | src/pages/ActionsPage.tsx:292-295 | Choosing "buy" in the type column from the start sends `page=1&size=10&type=buy`, with `type` in its original position. |
| `ActionsPage.ResetDesyncsOffFirstPage` | src/pages/ActionsPage.tsx:236-244 | A reset from any page but 1 leaves the shown page and the sent page disagreeing, until the next page change brings them back in step. |
| `ActionsPage.SubmitAction` | src/pages/ActionsPage.tsx:121-144 | A rejected save changes nothing; an update replaces the rows whose `_id` matches and clears the edited action; an add appends; both close the form. |
| `ActionsPage.UpdateOfMissingRowChangesNothing` | src/pages/ActionsPage.tsx:128-130 | An update whose `_id` matches no row leaves the list as it was. |
| `ActionsPage.ConfirmDelete` | src/pages/ActionsPage.tsx:166-181 | No pending id or a rejected call changes nothing; otherwise exactly the rows whose `id` differs from the pending value survive, and the alert closes. |
| `ActionsPage.DeleteByOidKeepsRow` | src/pages/ActionsPage.tsx:411 | The delete button passes `_id` but the filter compares `id`: a row whose two ids differ is still listed after its own deletion. |
| `ActionsPage.DeleteKeepsOrder` | src/pages/ActionsPage.tsx:172 | Deleting splits over the list, so survivors keep their order. |
| `ActionsPage.ProductName` | src/pages/ActionsPage.tsx:196-200 | `-` without a product id; the deleted-product text when no product has that `_id`; otherwise the name of a matching product no later than any other match. |
| `ActionsPage.ProductNameIsFirstMatch` | src/pages/ActionsPage.tsx:198-199 | The name shown is the first matching product's. |
| `ActionsPage.FormatActionType` | src/pages/ActionsPage.tsx:184-193 | `buy` and `other` get their Arabic labels; any other type is shown as it came, and only then. |
| `ActionsPage.FetchData` | src/pages/ActionsPage.tsx:103-119 | Loading always ends; a rejection or a missing products reply changes nothing else; products are stored before a bad actions reply throws; the total is `actionsCount` when truthy and 0 otherwise. |
| `ActionsPage.FetchDataCountFallback` | src/pages/ActionsPage.tsx:113 | For any products reply that can be read, an actions reply whose `actionsCount` is missing or falsy sets the total to 0. |
| `ProductsPage.OnSearchInput` | src/pages/ProductsPage.tsx:186-188 | Typing sets `searchKey` to the text and keeps `page`, `searchFields`, the shown page and every key position. |
| `ProductsPage.InitialQueryString` | src/pages/ProductsPage.tsx:39-79 | The first fetch sends `page=1&size=10`: `searchFields` stays back while the search text is empty. |
| `ProductsPage.SearchQueryString` | src/pages/ProductsPage.tsx:45-79 | Typing any non-blank text, Arabic and spaces included, sends it encoded twice after the page pairs, followed by `searchFields=name` and `searchFields=desc`. |
| `ProductsPage.BlankSearchSendsNoFields` | src/pages/ProductsPage.tsx:48-52 | A whitespace-only search text never sends `searchFields`, whether or not the filters held a `searchKey` before. |
| `ProductsPage.FetchProducts` | src/pages/ProductsPage.tsx:84-101 | The list is `reply.products` or the reply itself when that is an array, `[]` otherwise; a failure or a `null` reply empties the list and keeps the total; for an object reply the total is `productsCount` when truthy, else 0; for an array reply the total is 0; a string, number or boolean reply gives `[]` and 0. |
| `ProductsPage.FetchProductsCountFallback` | src/pages/ProductsPage.tsx:93 | A reply whose `productsCount` is missing or falsy sets the total to 0. |
| `ProductsPage.ReplyShapesAgree` | src/pages/ProductsPage.tsx:91-93 | A bare array reply and `{products: array}` give the same list. |
| `ProductsPage.SubmitProduct` | src/pages/ProductsPage.tsx:135-166 | A rejected save changes nothing; an update replaces the rows whose `_id` matches; an add appends; both close the dialog and the edited product stays set. |
| `ProductsPage.UpdateLeavesOtherRows` | src/pages/ProductsPage.tsx:147-151 | An update leaves every row with another `_id` as it was. |
| `ProductsPage.ConfirmDelete` | src/pages/ProductsPage.tsx:118-133 | No pending id or a rejected call changes nothing; otherwise exactly the products whose `_id` differs survive, and the alert closes. |
| `ProductsPage.DeleteByIdKeepsRow` | src/components/products/ProductTable.tsx:62 | The table passes `id` but the page filters on `_id`: a product whose two ids differ is still listed after its own deletion. |
| `ProductsPage.DeleteKeepsOrder` | src/pages/ProductsPage.tsx:124 | Deleting splits over the list, so survivors keep their order. |
| `Pagination.NumOfPages` | src/components/PaginationComponent.tsx:11 | `Math.ceil(total / 10)`: the pages hold every row with fewer than ten to spare; 0 rows give 0 pages. |
| `Pagination.NumOfPagesIsLeast` | src/components/PaginationComponent.tsx:11 | No smaller page count holds the total. |
| `Pagination.PagesAreOneToN` | src/components/PaginationComponent.tsx:12 | The links are numbered 1 to n, in order, and there are none for a negative count. |
| `Pagination.BuildPageList` | src/components/PaginationComponent.tsx:12 | The loop builds the same list: n links, link `i` showing `i + 1`, strictly increasing. |
| `Pagination.Previous` | src/components/PaginationComponent.tsx:13-17 | Previous reports a page exactly when the current page is above 1, and reports the one before. |
| `Pagination.Next` | src/components/PaginationComponent.tsx:18-22 | Next reports a page exactly when the current page is below the count, and reports the one after. |
| `Pagination.StepsStayInRange` | src/components/PaginationComponent.tsx:13-22 | From a page within 1 to n, neither button leaves that range. |
| `Pagination.ClickReportsShownPage` | src/components/PaginationComponent.tsx:32 | Clicking a link reports the number it shows. |
| `Pagination.ActiveCount` | src/components/PaginationComponent.tsx:32 | The number of highlighted links is at most the number of links, and zero exactly when the current page is not among them. |
| `Pagination.ExactlyOneActive` | src/components/PaginationComponent.tsx:30-32 | Exactly one link is highlighted when the current page is within 1 to n, and none otherwise. |
| `ApiInterceptors.AttachToken` | src/services/api.ts:12-19 | A stored non-empty token becomes the `Authorization` header as it is; other headers are kept; without a token nothing changes. |
| `ApiInterceptors.GetInAnyCase` | src/services/api.ts:28 | The method test ignores case: a method counts as GET exactly when it is `g`, `e`, `t` with each letter in either case. |
| `ApiInterceptors.OnSuccess` | src/services/api.ts:26-32 | The reply passes through unchanged; one success toast with the body's message exactly when that message is truthy and the method is not GET. |
| `ApiInterceptors.GetIsQuiet` | src/services/api.ts:28 | A GET never raises a success toast. |
| `ApiInterceptors.OnError` | src/services/api.ts:33-47 | Without `config` it throws at once. Otherwise one error toast exactly for non-GET methods, with the server message or the generic text; on 401 the token and user are removed and the browser goes to `/signin`; the call rejects with the same error. |
| `ApiInterceptors.UnauthorisedGetLogsOutQuietly` | src/services/api.ts:40-44 | A 401 on a GET logs out with no toast. |
| `ApiInterceptors.LogoutIsIdempotent` | src/services/api.ts:41-42 | A second 401 removes nothing more from storage. |
| `ApiInterceptors.MissingMessageFallsBack` | src/services/api.ts:36 | A failed non-GET call with no reply toasts the generic text. |
| `StatisticsPage.StatisticsParams` | src/pages/StatisticsPage.tsx:76-78 | `period` and `year` come first; `month` is sent exactly for a monthly report and `productId` exactly when one is chosen, each with its value. |
| `StatisticsPage.YearlyParams` | src/pages/StatisticsPage.tsx:76-78 | A yearly report with no product sends only `period` and `year`. |
| `StatisticsPage.ErrorText` | src/pages/StatisticsPage.tsx:86 | The server message if truthy, else the error's own message if truthy, else the generic text; nothing when the thrown value is `null` or `undefined`. |
| `StatisticsPage.ErrorTextFallback` | src/pages/StatisticsPage.tsx:86 | An error with no response and no message shows the generic text. |
| `StatisticsPage.FetchStatistics` | src/pages/StatisticsPage.tsx:71-90 | Loading always ends. Success stores the data and product options and clears the error. A failure at any step keeps what was stored before it and sets the error from what was thrown. |
| `StatisticsPage.Fail` | src/pages/StatisticsPage.tsx:85-86 | The catch block changes only the error text, and only when one can be read. |
| `StatisticsPage.SuccessClearsError` | src/pages/StatisticsPage.tsx:74 | A successful fetch leaves no error text behind. |
| `StatisticsPage.DefaultMonth` | src/pages/StatisticsPage.tsx:62-64 | The default month text is two digits that read back as the month, with a leading zero exactly for months before October. |
| `ActionDetail.FormatActionType` | src/components/actions/ActionDetail.tsx:18-24 | `buy` and `other` get their bilingual labels; any other type is shown as it came, and only then. |
| `ActionDetail.FormatAmountType` | src/components/actions/ActionDetail.tsx:26-33 | The three units get their Arabic names; any other unit is shown as it came, and only then. |
| `ActionDetail.IncomeText` | src/components/actions/ActionDetail.tsx:105 | `0` exactly when the income is not positive; otherwise `+` followed by digits, without a leading zero, that read back as the income. |
| `ActionDetail.OutcomeText` | src/components/actions/ActionDetail.tsx:115 | `0` exactly when the outcome is not positive; otherwise `-` followed by digits, without a leading zero, that read back as the outcome. |
| `ActionDetail.OutcomeIsNegatedNumber` | src/components/actions/ActionDetail.tsx:115 | A positive outcome is printed as the negated number would be. |
| `ActionDetail.Render` | src/components/actions/ActionDetail.tsx:16-134 | Nothing without an action; otherwise the formatted labels, the income and outcome cells, the amount and running balance as stored, the type description and statement as written but only when non-empty, and the product block exactly when a product is given, with its name, amount and non-empty description. |
| `BalanceSign.SignOf` | src/components/balance/BalanceHeader.tsx:37-41 | The three-way sign test both widgets use: exactly one of positive, negative, zero. |
| `BalanceSign.BySign` | src/components/balance/BalanceDisplay.tsx:44-54 | The shared three-way branch: the positive choice for a positive balance, the negative one for a negative balance, the zero one for zero. |
| `BalanceHeader.Colour` | src/components/balance/BalanceHeader.tsx:37-41 | Green, red or grey classes for a positive, negative or zero balance. |
| `BalanceHeader.ColourFollowsSign` | src/components/balance/BalanceHeader.tsx:37-41 | Two balances get the same classes exactly when they have the same sign. |
| `BalanceHeader.Fetch` | src/components/balance/BalanceHeader.tsx:14-27 | Loading ends; a rejection or a `null` reply shows the failure text with balance 0; otherwise the error is cleared and the balance is the reply's, or 0 when missing. |
| `BalanceHeader.Show` | src/components/balance/BalanceHeader.tsx:57-63 | The skeleton while loading, else the error, else the amount. |
| `BalanceHeader.FetchThenShow` | src/components/balance/BalanceHeader.tsx:14-27 | After a fetch the skeleton is gone, and the error shows exactly when the fetch failed. |
| `BalanceDisplay.Colour` | src/components/balance/BalanceDisplay.tsx:44-48 | Green, red or grey text for a positive, negative or zero balance. |
| `BalanceDisplay.Background` | src/components/balance/BalanceDisplay.tsx:50-54 | Green, red or grey background for the same three cases. |
| `BalanceDisplay.ColourAndBackgroundAgree` | src/components/balance/BalanceDisplay.tsx:44-54 | Text colour and background always take the same branch, and both follow the sign. |
| `BalanceDisplay.Status` | src/components/balance/BalanceDisplay.tsx:113-125 | "in profit" exactly for a positive balance, "in loss" exactly for a negative one, "balanced" exactly for zero. |
| `BalanceDisplay.Headline` | src/components/balance/BalanceDisplay.tsx:110 | `Math.abs`: never negative, the balance or its negation. |
| `BalanceDisplay.HeadlineForgetsSign` | src/components/balance/BalanceDisplay.tsx:110-125 | A balance and its opposite show the same headline; the headline is 0 exactly when the status is "balanced". |
| `BalanceDisplay.CurrentBalance` | src/components/balance/BalanceDisplay.tsx:84 | `balanceData?.balance or 0`: 0 before any data, for a `null` reply and for a missing balance. |
| `BalanceDisplay.Fetch` | src/components/balance/BalanceDisplay.tsx:22-34 | Loading ends; a reply is stored as it came with the error cleared; a rejection sets the failure text and keeps the old data. |
| `BalanceDisplay.Show` | src/components/balance/BalanceDisplay.tsx:56-87 | The skeleton while loading, else the error, else a card whose headline, status, colour and background come from the current balance. |
| `BalanceDisplay.FailedRefreshKeepsData` | src/components/balance/BalanceDisplay.tsx:28-30 | A failed refresh shows the failure text but keeps the data fetched before. |
| `DashboardLayout.CurrentTab` | src/components/layout/DashboardLayout.tsx:14-22 | Products exactly for `/` and `/products`, statistics exactly for `/statistics`, and actions for every other path. |
| `DashboardLayout.FollowingLinkHighlightsIt` | src/components/layout/DashboardLayout.tsx:48-80 | Following any tab's link highlights that same tab. |
| `DashboardLayout.TrailingSlashIsActions` | src/components/layout/DashboardLayout.tsx:15-21 | Paths are matched exactly: any non-empty path with a trailing slash added, `/products/` and `/statistics/` included, highlights the actions tab. |

## Left out

- Rendering (JSX, class names beyond the colour choices, icons, dialogs) is not modelled; the views are datatypes that record what is shown.
- The asynchronous ordering of fetches, `useEffect` re-runs and the refetch after every save or delete are not modelled. Each handler is one step from one state. The server's answers are parameters: `Option` for a rejected call, `JsVal` for an arbitrary reply.
- `toast`, `localStorage`, `window.location` and `console` are not modelled as effects. They are recorded values: a list of toasts, a storage map and a location string. Logging is dropped.
- `Intl.NumberFormat`, `toLocaleDateString` and `new Date()` are not modelled. The formatted amount is the number, and the default year and month are parameters: `DefaultMonth` takes the month number.
- Numbers are integers: floating point, `NaN` and `Infinity` are not modelled.
- `Strings.ToLower` maps ASCII letters only, because the only text it is applied to is an HTTP method name.
- The query strings built on both list pages are computed, but they never reach the server: `getAll` in src/services/products.api.ts and src/services/actions.api.ts declares no parameter, so the argument is dropped. The HTTP calls themselves are not modelled.
- The pages also call `actionsApi.update`, `getBalance`, `getStatistics` and `productsApi.backup`, which the service files do not define. Their results are parameters.
- `handleBackup` of the dashboard layout, and the action and product forms, are not modelled: they only forward form input to the services.
- The search box's displayed value `filters.searchKey or ""` is not modelled.
- `ActionsPage.FetchData` and the list edits assume the stored lists are arrays. The page stores whatever the reply carried, so the model keeps the reply value as it is and proves nothing about later array methods on a non-array.
- `StatisticsPage.FetchStatistics` takes the TypeError object thrown by a property read of `null` as a parameter, because its message text comes from the JavaScript engine.
- `BalanceHeader.Fetch` and `BalanceDisplay.CurrentBalance` take the reply's `balance` to be a number or missing, as the reply type declares; a non-numeric balance is not modelled.
- The request interceptor's error handler only passes the error on, and is not modelled.
- `UrlEncoding.EncodeUriComponent` has no error path: `encodeURIComponent` throws a URIError on a lone surrogate, but a Dafny `char` is a Unicode scalar value and cannot hold one.
- `FilterBag.Set` and `FilterBag.Lookup` keep keys in insertion order. JavaScript lists array-index keys such as `"0"` first, in ascending order, in both spread and `Object.entries`; such keys are not modelled, and the pages only ever use fixed non-numeric keys.

=== FILE: action_detail.dfy ===
/** The action detail dialog (src/components/actions/ActionDetail.tsx): the
    labels it derives from an action and the signed income and outcome
    texts. The dialog renders nothing without an action. */
module ActionDetail {
  import opened Wrappers
  import opened Strings
  import opened Entities

  /** The dialog's `formatActionType`: Arabic label with the English word. */
  function FormatActionType(kind: string): (r: string)
    ensures kind == "buy" ==> r == "شراء (Buy)"
    ensures kind == "other" ==> r == "آخر (Other)"
    ensures r == kind <==> kind != "buy" && kind != "other"
  {
    if kind == "buy" then "شراء (Buy)" else if kind == "other" then "آخر (Other)" else kind
  }

  /** `formatAmountType`: Arabic unit names for the three known units. */
  function FormatAmountType(unit: string): (r: string)
    ensures unit == "piece" ==> r == "قطعة"
    ensures unit == "kg" ==> r == "كيلوغرام"
    ensures unit == "litre" ==> r == "لتر"
    ensures r == unit <==> unit !in {"piece", "kg", "litre"}
  {
    if unit == "piece" then "قطعة"
    else if unit == "kg" then "كيلوغرام"
    else if unit == "litre" then "لتر"
    else unit
  }

  /** A money cell: `sign` and the digits of a positive amount, `0`
      otherwise. */
  function SignedCell(n: int, sign: char): (r: string)
    ensures r == "0" <==> n <= 0
    ensures n > 0 ==> |r| >= 2 && r[0] == sign && IsDigits(r[1..]) && DigitsValue(r[1..]) == n
    ensures n > 0 ==> r[1] != '0'
  {
    if n > 0 then
      var d := IntToString(n);
      assert ([sign] + d)[1..] == d;
      [sign] + d
    else "0"
  }

  /** The income cell: `+n` for a positive income, `0` otherwise. */
  function IncomeText(n: int): (r: string)
    ensures r == "0" <==> n <= 0
    ensures n > 0 ==> |r| >= 2 && r[0] == '+' && IsDigits(r[1..]) && DigitsValue(r[1..]) == n
    ensures n > 0 ==> r[1] != '0'
  {
    SignedCell(n, '+')
  }

  /** The outcome cell: `-n` for a positive outcome, `0` otherwise. */
  function OutcomeText(n: int): (r: string)
    ensures r == "0" <==> n <= 0
    ensures n > 0 ==> |r| >= 2 && r[0] == '-' && IsDigits(r[1..]) && DigitsValue(r[1..]) == n
    ensures n > 0 ==> r[1] != '0'
  {
    SignedCell(n, '-')
  }

  /** A positive outcome is shown exactly as `String(-n)` would print it. */
  lemma OutcomeIsNegatedNumber(n: int)
    requires n > 0
    ensures OutcomeText(n) == IntToString(-n)
  {
    NatToStringRoundTrip(n);
  }

  /** What the dialog shows for a product, if one was passed. */
  datatype ProductInfo = ProductInfo(name: string, amount: int, desc: Option<string>)

  /** The dialog's content: the two labels, the optional description under
      the type, the amount, the signed money cells, the running balance, the
      statement (only when non-empty) and the product block. */
  datatype View = View(
    actionType: string,
    typeDesc: Option<string>,
    amountType: string,
    amount: int,
    income: string,
    outcome: string,
    balance: int,
    statement: Option<string>,
    product: Option<ProductInfo>)

  /** Drops an empty text, as `{text && ...}` does. */
  function NonEmpty(s: Option<string>): (r: Option<string>)
    ensures r.Some? <==> s.Some? && s.value != ""
    ensures r.Some? ==> r == s
  {
    if s.Some? && s.value != "" then s else None
  }

  /** The rendered dialog: nothing without an action. */
  function Render(action: Option<Action>, product: Option<Product>): (r: Option<View>)
    ensures r.None? <==> action.None?
    ensures r.Some? ==> r.value.actionType == FormatActionType(action.value.kind)
    ensures r.Some? ==> r.value.amountType == FormatAmountType(action.value.amountType)
    ensures r.Some? ==> r.value.income == IncomeText(action.value.income)
    ensures r.Some? ==> r.value.outcome == OutcomeText(action.value.outcome)
    ensures r.Some? ==> r.value.amount == action.value.amount && r.value.balance == action.value.balance
    ensures r.Some? ==> (r.value.typeDesc.Some? <==> action.value.typeDesc.Some? && action.value.typeDesc.value != "")
    ensures r.Some? && r.value.typeDesc.Some? ==> r.value.typeDesc == action.value.typeDesc
    ensures r.Some? ==> (r.value.statement.Some? <==> action.value.statement != "")
    ensures r.Some? && r.value.statement.Some? ==> r.value.statement.value == action.value.statement
    ensures r.Some? ==> (r.value.product.Some? <==> product.Some?)
    ensures r.Some? && product.Some? ==>
              r.value.product.value.name == product.value.name
              && r.value.product.value.amount == product.value.amount
              && (r.value.product.value.desc.Some? <==> product.value.desc.Some? && product.value.desc.value != "")
              && (r.value.product.value.desc.Some? ==> r.value.product.value.desc == product.value.desc)
  {
    match action
    case None => None
    case Some(a) =>
      var info :=
        match product
        case None => None
        case Some(p) => Some(ProductInfo(p.name, p.amount, NonEmpty(p.desc)));
      Some(View(FormatActionType(a.kind), NonEmpty(a.typeDesc), FormatAmountType(a.amountType),
                a.amount, IncomeText(a.income), OutcomeText(a.outcome), a.balance,
                NonEmpty(Some(a.statement)), info))
  }
}

=== FILE: actions_page.dfy ===
/** The actions list page (src/pages/ActionsPage.tsx): its filter bags, the
    column-filter, reset and page handlers, the local list edits after add,
    update and delete, the fetch result, and the two display helpers. */
module ActionsPage {
  import opened Wrappers
  import opened Strings
  import opened JsValues
  import opened Entities
  import opened FilterBag
  import opened UrlEncoding
  import opened SearchParams
  import opened ListQuery
  import opened ListEdits

  const IncomeKey := "وارد"
  const OutcomeKey := "منصرف"

  /** The bag the page starts with; `page` holds the initial `currentPage`. */
  function InitialFilters(currentPage: int): Bag {
    [ ("page", Num(currentPage)), ("size", Num(10)), ("type", Str("")),
      ("searchKey", Str("")), ("searchFields", Arr(["typeDesc"])),
      ("amountType", Str("")), ("product", Str("")), ("date", Str("")),
      (IncomeKey, Str("")), (OutcomeKey, Str("")) ]
  }

  const Initial := Query(1, InitialFilters(1))

  /** The bag the reset button installs: no `searchFields` and no amount keys. */
  const ResetFilters: Bag :=
    [ ("page", Num(1)), ("size", Num(10)), ("type", Str("")), ("searchKey", Str("")),
      ("amountType", Str("")), ("product", Str("")), ("date", Str("")) ]

  lemma InitialKeysUnique(p: int)
    ensures UniqueKeys(InitialFilters(p))
  {
  }

  /** The four table-header filters and the key each one writes. */
  datatype Column = ProductColumn | TypeColumn | AmountTypeColumn | DateColumn

  function ColumnKey(c: Column): string {
    match c
    case ProductColumn => "product"
    case TypeColumn => "type"
    case AmountTypeColumn => "amountType"
    case DateColumn => "date"
  }

  /** A column filter's `onValueChange`/`onChange`: its key takes the chosen
      text; every other key, `page` included, and the page number stay. */
  function OnColumnFilter(q: Query, c: Column, value: string): (r: Query)
    ensures r.currentPage == q.currentPage
    ensures Lookup(r.filters, ColumnKey(c)) == Some(Str(value))
    ensures forall k :: k != ColumnKey(c) ==> Lookup(r.filters, k) == Lookup(q.filters, k)
    ensures Lookup(r.filters, PageKey) == Lookup(q.filters, PageKey)
    ensures ColumnKey(c) in Keys(q.filters) ==> Keys(r.filters) == Keys(q.filters)
    ensures InSync(r) <==> InSync(q)
  {
    ColumnKeyIsNotPage(c);
    SetFilter(q, ColumnKey(c), Str(value))
  }

  lemma ColumnKeyIsNotPage(c: Column)
    ensures ColumnKey(c) != PageKey
  {
    assert ColumnKey(c)[0] != PageKey[0] || |ColumnKey(c)| != |PageKey|;
  }

  /** The reset button: a fresh bag on page 1 with empty filters and no
      `searchFields`; the page number shown is not touched. */
  function Reset(q: Query): (r: Query)
    ensures r.currentPage == q.currentPage
    ensures Lookup(r.filters, PageKey) == Some(Num(1))
    ensures Lookup(r.filters, "size") == Some(Num(10))
    ensures Lookup(r.filters, SearchFields) == None
    ensures forall i :: 2 <= i < |r.filters| ==> r.filters[i].1 == Str("")
    ensures InSync(r) <==> q.currentPage == 1
  {
    var b := ResetFilters;
    ResetFiltersLookups(b);
    Query(q.currentPage, b)
  }

  lemma ResetFiltersLookups(b: Bag)
    requires b == ResetFilters
    ensures Lookup(b, PageKey) == Some(Num(1))
    ensures Lookup(b, "size") == Some(Num(10))
    ensures Lookup(b, SearchFields) == None
    ensures forall i :: 2 <= i < |b| ==> b[i].1 == Str("")
  {
    ResetPage(b);
    ResetSize(b);
    ResetHasNoSearchFields(b);
    ResetFiltersEmpty(b);
  }

  lemma ResetPage(b: Bag)
    requires b == ResetFilters
    ensures Lookup(b, PageKey) == Some(Num(1))
  {
    LookupFirst(b, 0, PageKey);
  }

  lemma ResetSize(b: Bag)
    requires b == ResetFilters
    ensures Lookup(b, "size") == Some(Num(10))
  {
    LookupFirst(b, 1, "size");
  }

  lemma ResetFiltersEmpty(b: Bag)
    requires b == ResetFilters
    ensures forall i :: 2 <= i < |b| ==> b[i].1 == Str("")
  {
  }

  lemma ResetHasNoSearchFields(b: Bag)
    requires b == ResetFilters
    ensures Lookup(b, SearchFields) == None
  {
    assert forall i :: 0 <= i < |b| ==> |b[i].0| != |SearchFields|;
  }

  /* ---- The serialised filters in three situations ---- */

  /** On first render the only pairs sent are the page and the page size. */
  lemma InitialQueryString()
    ensures BuildSearchParams(Initial.filters) == Some("page=1&size=10")
  {
    var b := InitialFilters(1);
    InitialNoSearch(b);
    InitialTailSilent(b);
    PageSizeOnly(b, false);
  }

  /** After the reset button the same two pairs are all that is sent. */
  lemma ResetQueryString(q: Query)
    ensures BuildSearchParams(Reset(q).filters) == Some("page=1&size=10")
  {
    var b := Reset(q).filters;
    ResetNoSearch(b);
    ResetTailSilent(b);
    PageSizeOnly(b, false);
  }

  /** Choosing "buy" in the type column from the initial state adds
      `type=buy` after the page pairs, in the key's original position. */
  lemma TypeFilterQueryString()
    ensures BuildSearchParams(OnColumnFilter(Initial, TypeColumn, "buy").filters)
         == Some("page=1&size=10&type=buy")
  {
    var r := OnColumnFilter(Initial, TypeColumn, "buy").filters;
    TypeFilterBag(r);
    TypeFilterBuild(r);
  }

  /** The type filter rewrites the third entry in place. */
  lemma TypeFilterBag(r: Bag)
    requires r == OnColumnFilter(Initial, TypeColumn, "buy").filters
    ensures r == InitialFilters(1)[2 := ("type", Str("buy"))]
  {
    var b := InitialFilters(1);
    InitialShape(b);
    TypeFilterIsSet(b, r);
    SetThird(b, r);
  }

  lemma SetThird(b: Bag, r: Bag)
    requires |b| >= 3 && b[0].0 == "page" && b[1].0 == "size" && b[2].0 == "type"
    requires r == Set(b, "type", Str("buy"))
    ensures r == b[2 := ("type", Str("buy"))]
  {
    SetAtThird(b, "type", Str("buy"));
  }

  lemma TypeFilterIsSet(b: Bag, r: Bag)
    requires b == InitialFilters(1)
    requires r == OnColumnFilter(Initial, TypeColumn, "buy").filters
    ensures r == Set(b, "type", Str("buy"))
  {
  }

  lemma TypeFilterBuild(r: Bag)
    requires r == InitialFilters(1)[2 := ("type", Str("buy"))]
    ensures BuildSearchParams(r) == Some("page=1&size=10&type=buy")
  {
    TypeFilterNoSearch(r);
    TypeFilterTailSilent(r);
    var c := r[..3];
    TypeFilterHead(r, c);
    TypeFilterHeadPairs(c);
    var ps := RawPairs(c, false);
    TypeQuery(ps);
    BuildFromPrefix(r, 3, false, ps, "page=1&size=10&type=buy");
  }

  lemma TypeFilterHeadPairs(c: Bag)
    requires |c| == 3 && c[0] == ("page", Num(1)) && c[1] == ("size", Num(10))
    requires c[2] == ("type", Str("buy"))
    ensures RawPairs(c, false) == [("page", "1"), ("size", "10")] + [("type", "buy")]
  {
    assert c == c[..2] + c[2..];
    RawPairsAppend(c[..2], c[2..], false);
    PageSizePairs(c[..2], false);
    TypePairs(c[2..]);
  }

  /** The initial bag's first keys, as plain facts. */
  lemma InitialShape(b: Bag)
    requires b == InitialFilters(1)
    ensures |b| == 10 && b[0].0 == "page" && b[1].0 == "size" && b[2].0 == "type"
  {
  }

  lemma TypeFilterNoSearch(r: Bag)
    requires r == InitialFilters(1)[2 := ("type", Str("buy"))]
    ensures HasSearch(r) == Some(false)
  {
    LookupFirst(r, 3, SearchKey);
    assert Blank("");
  }

  lemma TypeFilterTailSilent(r: Bag)
    requires r == InitialFilters(1)[2 := ("type", Str("buy"))]
    ensures forall i :: 3 <= i < |r| ==> Silent(r[i], false)
  {
  }

  lemma TypeFilterHead(r: Bag, c: Bag)
    requires r == InitialFilters(1)[2 := ("type", Str("buy"))] && c == r[..3]
    ensures |c| == 3 && c[0] == ("page", Num(1)) && c[1] == ("size", Num(10))
    ensures c[2] == ("type", Str("buy"))
  {
  }

  lemma InitialNoSearch(b: Bag)
    requires b == InitialFilters(1)
    ensures HasSearch(b) == Some(false)
  {
    LookupFirst(b, 3, SearchKey);
    assert Blank("");
  }

  lemma InitialTailSilent(b: Bag)
    requires b == InitialFilters(1)
    ensures b[0] == ("page", Num(1)) && b[1] == ("size", Num(10))
    ensures forall i :: 2 <= i < |b| ==> Silent(b[i], false)
  {
  }

  lemma ResetNoSearch(b: Bag)
    requires b == ResetFilters
    ensures HasSearch(b) == Some(false)
  {
    LookupFirst(b, 3, SearchKey);
    assert Blank("");
  }

  lemma ResetTailSilent(b: Bag)
    requires b == ResetFilters
    ensures b[0] == ("page", Num(1)) && b[1] == ("size", Num(10))
    ensures forall i :: 2 <= i < |b| ==> Silent(b[i], false)
  {
  }

  lemma TypePairs(d: Bag)
    requires |d| == 1 && d[0] == ("type", Str("buy"))
    ensures RawPairs(d, false) == [("type", "buy")]
  {
    RawPairsCons(d, false);
    assert d[1..] == [];
  }

  lemma TypeQuery(ps: seq<Pair>)
    requires |ps| == 3 && ps[0] == ("page", "1") && ps[1] == ("size", "10")
    requires ps[2] == ("type", "buy")
    ensures QueryString(ps) == "page=1&size=10&type=buy"
  {
    var a, t := ps[..2], [ps[2]];
    assert ps == a + t;
    QueryStringAppend(a, t);
    PageSizeQuery(a);
    TypeAlone(t);
    TypeText(QueryString(a), QueryString(t));
  }

  lemma TypeAlone(t: seq<Pair>)
    requires t == [("type", "buy")]
    ensures QueryString(t) == "type" + "=" + "buy"
  {
    assert AllFormSafe("type") && AllFormSafe("buy");
    QueryStringOne(t[0]);
  }

  lemma TypeText(a: string, t: string)
    requires a == "page=1&size=10" && t == "type" + "=" + "buy"
    ensures a + "&" + t == "page=1&size=10&type=buy"
  {
  }

  /** The reset bag has `page` 1 whatever page is shown, so after a reset
      from any other page the two disagree until the next page change. */
  lemma ResetDesyncsOffFirstPage(q: Query)
    requires q.currentPage != 1
    ensures !InSync(Reset(q))
    ensures ChangePage(Reset(q), q.currentPage).currentPage == q.currentPage
    ensures InSync(ChangePage(Reset(q), q.currentPage))
  {
  }

  /* ---- Local list edits ---- */

  /** What `handleActionSubmit` leaves behind: the list, the action being
      edited and whether the form dialog is open. */
  datatype Submitted = Submitted(actions: seq<Action>, editing: Option<Action>, formOpen: bool)

  /** `handleActionSubmit`. `editing` is `editingAction`; `result` is the
      `action` of the server's reply, or `None` when the call rejected, in
      which case nothing changes. An update replaces every row whose `_id`
      matches and clears `editingAction`; an add appends. Either success
      closes the form. */
  function SubmitAction(actions: seq<Action>, editing: Option<Action>, formOpen: bool,
                        result: Option<Action>): (r: Submitted)
    ensures result.None? ==> r == Submitted(actions, editing, formOpen)
    ensures result.Some? ==> !r.formOpen && r.editing.None?
    ensures result.Some? && editing.None? ==>
              |r.actions| == |actions| + 1 && r.actions[..|actions|] == actions
              && r.actions[|actions|] == result.value
    ensures result.Some? && editing.Some? ==>
              |r.actions| == |actions|
              && forall i :: 0 <= i < |actions| ==>
                   r.actions[i] == (if actions[i].oid == editing.value.oid then result.value
                                    else actions[i])
  {
    match result
    case None => Submitted(actions, editing, formOpen)
    case Some(a) =>
      if editing.Some? then
        Submitted(ReplaceWhere(actions, (x: Action) => x.oid == editing.value.oid, a), None, false)
      else
        Submitted(Append(actions, a), None, false)
  }

  /** An update whose `_id` matches no row leaves the list as it was. */
  lemma UpdateOfMissingRowChangesNothing(actions: seq<Action>, editing: Action, a: Action)
    requires forall i :: 0 <= i < |actions| ==> actions[i].oid != editing.oid
    ensures SubmitAction(actions, Some(editing), true, Some(a)).actions == actions
  {
  }

  /** What `confirmDelete` leaves behind: the list, the id awaiting
      confirmation and whether the alert is open. */
  datatype Deleted = Deleted(actions: seq<Action>, pending: Option<string>, alertOpen: bool)

  /** `confirmDelete`. With no pending id (`null` or `""`) it returns at once;
      if the server call rejects (`ok` false) nothing changes; otherwise the
      rows whose `id` differs from the pending value are kept, in order, and
      the alert closes. */
  function ConfirmDelete(actions: seq<Action>, pending: Option<string>, alertOpen: bool,
                         ok: bool): (r: Deleted)
    ensures pending.None? || pending == Some("") || !ok ==>
              r == Deleted(actions, pending, alertOpen)
    ensures pending.Some? && pending.value != "" && ok ==>
              r.pending.None? && !r.alertOpen
              && (forall i :: 0 <= i < |r.actions| ==>
                    r.actions[i] in actions && r.actions[i].id != pending.value)
              && (forall i :: 0 <= i < |actions| && actions[i].id != pending.value ==>
                    actions[i] in r.actions)
  {
    match pending
    case None => Deleted(actions, pending, alertOpen)
    case Some(target) =>
      if target == "" || !ok then Deleted(actions, pending, alertOpen)
      else Deleted(Keep(actions, (a: Action) => a.id != target), None, false)
  }

  /** The delete button hands over a row's `_id`, but the filter compares
      `id`: a row whose `_id` is the target and whose `id` is not stays in
      the list. */
  lemma DeleteByOidKeepsRow(actions: seq<Action>, i: nat)
    requires i < |actions| && actions[i].oid != "" && actions[i].id != actions[i].oid
    ensures actions[i] in ConfirmDelete(actions, Some(actions[i].oid), true, true).actions
  {
  }

  /** Deleting splits over the list: the rows before and after are
      filtered independently, so the order of the survivors is kept. */
  lemma DeleteKeepsOrder(a: seq<Action>, b: seq<Action>, target: string)
    requires target != ""
    ensures ConfirmDelete(a + b, Some(target), true, true).actions
         == ConfirmDelete(a, Some(target), true, true).actions
          + ConfirmDelete(b, Some(target), true, true).actions
  {
    KeepConcat(a, b, (x: Action) => x.id != target);
  }

  /* ---- Display helpers ---- */

  const DeletedProduct := "المنتج محذوف"

  /** `getProductName`: `"-"` without a product id, otherwise the name of the
      first product whose `_id` matches, or the "deleted product" text. */
  function ProductName(products: seq<Product>, productId: Option<string>): (r: string)
    ensures productId.None? || productId == Some("") ==> r == "-"
    ensures productId.Some? && productId.value != "" ==>
              (r == DeletedProduct <== forall i :: 0 <= i < |products| ==> products[i].oid != productId.value)
    ensures productId.Some? && productId.value != "" ==>
              forall i :: 0 <= i < |products| && products[i].oid == productId.value ==>
                exists j :: 0 <= j <= i && products[j].oid == productId.value && r == products[j].name
  {
    match productId
    case None => "-"
    case Some(id) =>
      if id == "" then "-"
      else match FindFirst(products, (p: Product) => p.oid == id)
        case None => DeletedProduct
        case Some(j) => products[j].name
  }

  /** The name shown is the FIRST match's: a later product with the same
      `_id` is never consulted. */
  lemma ProductNameIsFirstMatch(products: seq<Product>, id: string, j: nat)
    requires id != "" && j < |products| && products[j].oid == id
    requires forall k :: 0 <= k < j ==> products[k].oid != id
    ensures ProductName(products, Some(id)) == products[j].name
  {
  }

  /** The table's `formatActionType`: Arabic labels for `buy` and `other`,
      anything else as it came. */
  function FormatActionType(kind: string): (r: string)
    ensures kind == "buy" ==> r == "شراء"
    ensures kind == "other" ==> r == "آخر"
    ensures r == kind <==> kind != "buy" && kind != "other"
  {
    if kind == "buy" then "شراء" else if kind == "other" then "آخر" else kind
  }

  /* ---- Fetching ---- */

  /** The page's fetched state. `actions` and `total` hold whatever the
      reply carried: the page stores `actionsData.actions` without checking
      that it is an array. */
  datatype Listing = Listing(products: JsVal<Product>, actions: JsVal<Action>,
                             total: JsVal<Action>, loading: bool)

  /** `fetchData`. `replies` is the pair that `Promise.all` resolved to, or
      `None` when it rejected. The three setters run in order, so a `null`
      or `undefined` products reply throws before any of them, and one for
      actions throws after the products were stored. `loading` ends false
      on every path. */
  function FetchData(s: Listing, replies: Option<(JsVal<Product>, JsVal<Action>)>): (r: Listing)
    ensures !r.loading
    ensures replies.None? ==> r == s.(loading := false)
    ensures replies.Some? && Get(replies.value.0, "products").None? ==> r == s.(loading := false)
    ensures replies.Some? && Get(replies.value.0, "products").Some? ==>
              r.products == Get(replies.value.0, "products").value
    ensures replies.Some? && Get(replies.value.0, "products").Some?
            && Get(replies.value.1, "actions").None? ==>
              r.actions == s.actions && r.total == s.total
    ensures replies.Some? && Get(replies.value.0, "products").Some?
            && Get(replies.value.1, "actions").Some? ==>
              r.actions == Get(replies.value.1, "actions").value
              && (Truthy(r.total) || r.total == Number(0))
              && (Truthy(Get(replies.value.1, "actionsCount").value) ==>
                    r.total == Get(replies.value.1, "actionsCount").value)
              && r.total == Or(OptGet(replies.value.1, "actionsCount"), Number(0))
  {
    match replies
    case None => s.(loading := false)
    case Some((productsData, actionsData)) =>
      match Get(productsData, "products")
      case None => s.(loading := false)
      case Some(ps) =>
        match Get(actionsData, "actions")
        case None => s.(products := ps, loading := false)
        case Some(acts) =>
          var count := Get(actionsData, "actionsCount").value;
          Listing(ps, acts, Or(count, Number(0)), false)
  }

  /** A zero or missing count is shown as 0. */
  lemma FetchDataCountFallback(s: Listing, p: JsVal<Product>, a: map<string, JsVal<Action>>)
    requires !p.Undefined? && !p.Null? && ("actionsCount" !in a || !Truthy(a["actionsCount"]))
    ensures FetchData(s, Some((p, Object(a)))).total == Number(0)
  {
  }
}

=== FILE: api_interceptors.dfy ===
/** The shared HTTP client's interceptors (src/services/api.ts). The request
    interceptor copies the stored token into the `Authorization` header; the
    response interceptors decide which toast to raise, whether to log the
    user out, and how the call settles. `localStorage` is a map, the toasts
    raised and the new `window.location` are recorded values. */
module ApiInterceptors {
  import opened Wrappers
  import opened Strings
  import opened JsValues

  type Storage = map<string, string>
  type Headers = map<string, string>

  const TokenKey := "token"
  const UserKey := "user"
  const SignInPath := "/signin"
  const GenericError := "حدث خطأ ما"

  /** The request interceptor: a stored, non-empty token becomes the
      `Authorization` header as it is, with no scheme in front; without one
      the headers are passed on untouched. */
  function AttachToken(headers: Headers, storage: Storage): (r: Headers)
    ensures TokenKey in storage && storage[TokenKey] != "" ==>
              "Authorization" in r && r["Authorization"] == storage[TokenKey]
    ensures forall h :: h != "Authorization" && h in headers ==> h in r && r[h] == headers[h]
    ensures r.Keys <= headers.Keys + {"Authorization"}
    ensures !(TokenKey in storage && storage[TokenKey] != "") ==> r == headers
  {
    if TokenKey in storage && storage[TokenKey] != "" then headers["Authorization" := storage[TokenKey]]
    else headers
  }

  /** `config.method?.toLowerCase() !== 'get'`: a missing method counts as
      not a GET. */
  predicate NotGet(httpMethod: Option<string>) {
    httpMethod.None? || ToLower(httpMethod.value) != "get"
  }

  /** The method test ignores case: a method is a GET exactly when it is
      the three letters g, e, t, each in either case. */
  lemma GetInAnyCase(m: string)
    ensures !NotGet(Some(m)) <==> |m| == 3 && m[0] in "gG" && m[1] in "eE" && m[2] in "tT"
  {
    var l := ToLower(m);
    if |m| == 3 {
      LowerCharIs(m[0], 'g', 'G');
      LowerCharIs(m[1], 'e', 'E');
      LowerCharIs(m[2], 't', 'T');
      assert l == "get" <==> l[0] == 'g' && l[1] == 'e' && l[2] == 't';
    } else {
      assert |l| != |"get"|;
    }
  }

  /** An ASCII letter lowers to `lower` from itself and its capital only. */
  lemma LowerCharIs(c: char, lower: char, upper: char)
    requires 'a' <= lower <= 'z' && upper as int == lower as int - 32
    ensures LowerChar(c) == lower <==> c == lower || c == upper
  {
  }

  datatype Config = Config(httpMethod: Option<string>)

  /** A resolved reply: its body and the request settings it answers. */
  datatype Response = Response(data: Json, config: Config)

  datatype Toast = SuccessToast(text: Json) | ErrorToast(text: Json)

  /** The success interceptor: one success toast carrying the body's
      `message` when that is truthy and the method is not GET; the reply
      itself is handed on unchanged. */
  function OnSuccess(response: Response): (r: (seq<Toast>, Response))
    ensures r.1 == response
    ensures |r.0| <= 1
    ensures |r.0| == 1 <==> Truthy(OptGet(response.data, "message")) && NotGet(response.config.httpMethod)
    ensures |r.0| == 1 ==> r.0[0] == SuccessToast(OptGet(response.data, "message"))
  {
    var message := OptGet(response.data, "message");
    if Truthy(message) && NotGet(response.config.httpMethod) then ([SuccessToast(message)], response)
    else ([], response)
  }

  /** A GET never raises a success toast, whatever the server says. */
  lemma GetIsQuiet(data: Json, httpMethod: string)
    requires !NotGet(Some(httpMethod))
    ensures OnSuccess(Response(data, Config(Some(httpMethod)))).0 == []
  {
  }

  /** A failed call as axios reports it: the request settings (absent when
      the request never got that far) and the server's reply, if any. */
  datatype HttpError = HttpError(config: Option<Config>, response: Json)

  /** How the error interceptor's promise settles: rejected with the error
      it was given, or with the TypeError thrown by reading `method` of a
      missing `config`. */
  datatype Settled = Rejected(error: HttpError) | RejectedTypeError

  /** Everything the error interceptor does. */
  datatype Effects = Effects(toasts: seq<Toast>, storage: Storage, location: string, settled: Settled)

  /** The error interceptor. Without `config`, reading `config.method`
      throws before anything else happens. Otherwise: an error toast for
      every method but GET, with the body's `message` or a generic text;
      on status 401 the token and the user are removed and the browser is
      sent to the sign-in page, whatever the method; and the call is
      rejected with the same error. */
  function OnError(error: HttpError, storage: Storage, location: string): (r: Effects)
    ensures error.config.None? ==> r == Effects([], storage, location, RejectedTypeError)
    ensures error.config.Some? ==> r.settled == Rejected(error)
    ensures error.config.Some? ==>
              (|r.toasts| == 1 <==> NotGet(error.config.value.httpMethod)) && |r.toasts| <= 1
    ensures error.config.Some? && |r.toasts| == 1 ==>
              r.toasts[0] == ErrorToast(Or(OptGet(OptGet(error.response, "data"), "message"), Text(GenericError)))
    ensures error.config.Some? && OptGet(error.response, "status") == Number(401) ==>
              r.storage == storage - {TokenKey, UserKey} && r.location == SignInPath
    ensures OptGet(error.response, "status") != Number(401) ==>
              r.storage == storage && r.location == location
  {
    match error.config
    case None => Effects([], storage, location, RejectedTypeError)
    case Some(config) =>
      var toasts :=
        if NotGet(config.httpMethod) then
          [ErrorToast(Or(OptGet(OptGet(error.response, "data"), "message"), Text(GenericError)))]
        else [];
      if OptGet(error.response, "status") == Number(401) then
        Effects(toasts, storage - {TokenKey, UserKey}, SignInPath, Rejected(error))
      else
        Effects(toasts, storage, location, Rejected(error))
  }

  /** A 401 logs the user out even on a GET, where no toast is shown. */
  lemma UnauthorisedGetLogsOutQuietly(response: Json, storage: Storage, location: string)
    requires OptGet(response, "status") == Number(401)
    ensures OnError(HttpError(Some(Config(Some("get"))), response), storage, location)
         == Effects([], storage - {TokenKey, UserKey}, SignInPath,
                    Rejected(HttpError(Some(Config(Some("get"))), response)))
  {
    assert ToLower("get") == "get";
  }

  /** Logging out twice removes nothing more: the second 401 finds the token
      and the user already gone. */
  lemma LogoutIsIdempotent(error: HttpError, storage: Storage, location: string)
    requires error.config.Some? && OptGet(error.response, "status") == Number(401)
    ensures var once := OnError(error, storage, location);
            OnError(error, once.storage, once.location).storage == once.storage
  {
    var once := OnError(error, storage, location);
    assert once.storage - {TokenKey, UserKey} == once.storage;
  }

  /** A reply without a message still gets a toast on a non-GET call: the
      generic text. */
  lemma MissingMessageFallsBack(httpMethod: Option<string>, storage: Storage, location: string)
    requires NotGet(httpMethod)
    ensures OnError(HttpError(Some(Config(httpMethod)), Undefined), storage, location).toasts
         == [ErrorToast(Text(GenericError))]
  {
  }
}

=== FILE: balance.dfy ===
/** The two balance widgets: the header strip on the list pages
    (src/components/balance/BalanceHeader.tsx) and the balance card
    (src/components/balance/BalanceDisplay.tsx). Both fetch the system
    balance and style it by its sign; only the sign and the magnitude of the
    balance matter, so it is an `int`. */
module BalanceSign {
  import opened Wrappers

  datatype Sign = Positive | Negative | Zero

  function SignOf(balance: int): (r: Sign)
    ensures r == Positive <==> balance > 0
    ensures r == Negative <==> balance < 0
    ensures r == Zero <==> balance == 0
  {
    if balance > 0 then Positive else if balance < 0 then Negative else Zero
  }

  /** The three-way branch both widgets take on a balance. */
  function BySign<T>(balance: int, positive: T, negative: T, zero: T): (r: T)
    ensures SignOf(balance) == Positive ==> r == positive
    ensures SignOf(balance) == Negative ==> r == negative
    ensures SignOf(balance) == Zero ==> r == zero
  {
    if balance > 0 then positive else if balance < 0 then negative else zero
  }

  /** What `getBalance` resolves to: `null`, or a record whose `balance` is a
      number or missing. */
  datatype BalanceReply = NullReply | Reply(balance: Option<int>)

  /** `reply.balance || 0` on a non-null reply: a missing or zero balance
      reads as 0. */
  function BalanceOr0(balance: Option<int>): (r: int)
    ensures balance.None? ==> r == 0
    ensures balance.Some? ==> r == balance.value
  {
    match balance
    case None => 0
    case Some(n) => n
  }

  const LoadFailed := "فشل في تحميل الرصيد"
}

module BalanceHeader {
  import opened Wrappers
  import opened BalanceSign

  /** `getBalanceColor` of the header: one class string per sign. */
  function Colour(balance: int): (r: string)
    ensures SignOf(balance) == Positive ==> r == "text-green-700 bg-green-50 border-green-200"
    ensures SignOf(balance) == Negative ==> r == "text-red-700 bg-red-50 border-red-200"
    ensures SignOf(balance) == Zero ==> r == "text-gray-700 bg-gray-50 border-gray-200"
  {
    BySign(balance, "text-green-700 bg-green-50 border-green-200",
           "text-red-700 bg-red-50 border-red-200", "text-gray-700 bg-gray-50 border-gray-200")
  }

  /** The three classes differ, so the colour tells the sign exactly. */
  lemma ColourFollowsSign(a: int, b: int)
    ensures Colour(a) == Colour(b) <==> SignOf(a) == SignOf(b)
  {
    var g, rd, gy := Colour(1), Colour(-1), Colour(0);
    assert g[7] != rd[7] && g[7] != gy[7] && rd[7] != gy[7];
  }

  datatype State = State(balance: int, loading: bool, error: Option<string>)

  /** `fetchBalance` of the header. `reply` is `None` when the call rejected.
      A rejection, or a `null` reply (reading its `balance` throws), sets the
      failure text and a balance of 0; otherwise the error is cleared and the
      balance is `reply.balance || 0`. Loading ends either way. */
  function Fetch(s: State, reply: Option<BalanceReply>): (r: State)
    ensures !r.loading
    ensures reply.None? || reply == Some(NullReply) ==> r.error == Some(LoadFailed) && r.balance == 0
    ensures reply.Some? && reply.value.Reply? ==>
              r.error.None? && r.balance == BalanceOr0(reply.value.balance)
  {
    match reply
    case None => State(0, false, Some(LoadFailed))
    case Some(NullReply) => State(0, false, Some(LoadFailed))
    case Some(Reply(b)) => State(BalanceOr0(b), false, None)
  }

  datatype View = Skeleton | Failure(message: string) | Amount(balance: int)

  /** What the right-hand side shows: the skeleton while loading, else the
      error, else the amount. */
  function Show(s: State): (r: View)
    ensures s.loading ==> r == Skeleton
    ensures !s.loading && s.error.Some? && s.error.value != "" ==> r == Failure(s.error.value)
    ensures r.Amount? <==> !s.loading && (s.error.None? || s.error.value == "")
    ensures r.Amount? ==> r.balance == s.balance
  {
    if s.loading then Skeleton
    else if s.error.Some? && s.error.value != "" then Failure(s.error.value)
    else Amount(s.balance)
  }

  /** After any fetch the header never shows the skeleton, and it shows
      the failure text exactly when the fetch failed. */
  lemma FetchThenShow(s: State, reply: Option<BalanceReply>)
    ensures Show(Fetch(s, reply)) != Skeleton
    ensures Show(Fetch(s, reply)).Failure? <==> reply.None? || reply == Some(NullReply)
  {
  }
}

module BalanceDisplay {
  import opened Wrappers
  import opened BalanceSign

  /** `getBalanceColor` of the card: the text colour. */
  function Colour(balance: int): (r: string)
    ensures SignOf(balance) == Positive ==> r == "text-green-600"
    ensures SignOf(balance) == Negative ==> r == "text-red-600"
    ensures SignOf(balance) == Zero ==> r == "text-gray-600"
  {
    BySign(balance, "text-green-600", "text-red-600", "text-gray-600")
  }

  /** `getBalanceBg`: the background for the same three cases. */
  function Background(balance: int): (r: string)
    ensures SignOf(balance) == Positive ==> r == "bg-green-50 border-green-200"
    ensures SignOf(balance) == Negative ==> r == "bg-red-50 border-red-200"
    ensures SignOf(balance) == Zero ==> r == "bg-gray-50 border-gray-200"
  {
    BySign(balance, "bg-green-50 border-green-200", "bg-red-50 border-red-200", "bg-gray-50 border-gray-200")
  }

  /** Colour and background always take the same branch: two balances get
      the same colour exactly when they get the same background. */
  lemma ColourAndBackgroundAgree(a: int, b: int)
    ensures Colour(a) == Colour(b) <==> Background(a) == Background(b)
    ensures Colour(a) == Colour(b) <==> SignOf(a) == SignOf(b)
  {
    var g, rd, gy := Colour(1), Colour(-1), Colour(0);
    assert g[7] != rd[7] && g[7] != gy[7] && rd[7] != gy[7];
    var bg, br, bgy := Background(1), Background(-1), Background(0);
    assert bg[5] != br[5] && bg[5] != bgy[5] && br[5] != bgy[5];
  }

  /** The status line under the amount. */
  function Status(balance: int): (r: string)
    ensures r == "في الربح" <==> balance > 0
    ensures r == "في الخسارة" <==> balance < 0
    ensures r == "متوازن" <==> balance == 0
  {
    BySign(balance, "في الربح", "في الخسارة", "متوازن")
  }

  /** `Math.abs(balance)`: the headline amount, never negative. */
  function Headline(balance: int): (r: nat)
    ensures r == balance || r == -balance
  {
    if balance < 0 then -balance else balance
  }

  /** The sign lives in the colour and status, not the amount: a balance and
      its opposite show the same headline. */
  lemma HeadlineForgetsSign(balance: int)
    ensures Headline(balance) == Headline(-balance)
    ensures Headline(balance) == 0 <==> Status(balance) == "متوازن"
  {
  }

  /** `balanceData` is `None` for the initial `null`. */
  datatype State = State(data: Option<BalanceReply>, loading: bool, error: Option<string>)

  /** `balanceData?.balance || 0`. */
  function CurrentBalance(data: Option<BalanceReply>): (r: int)
    ensures data.None? || data == Some(NullReply) ==> r == 0
    ensures data.Some? && data.value.Reply? ==> r == BalanceOr0(data.value.balance)
  {
    match data
    case None => 0
    case Some(NullReply) => 0
    case Some(Reply(b)) => BalanceOr0(b)
  }

  /** `fetchBalance` of the card: the reply is stored as it came, with no
      property read; a rejection sets the failure text and keeps the data
      shown before. */
  function Fetch(s: State, reply: Option<BalanceReply>): (r: State)
    ensures !r.loading
    ensures reply.None? ==> r.error == Some(LoadFailed) && r.data == s.data
    ensures reply.Some? ==> r.error.None? && r.data == Some(reply.value)
  {
    match reply
    case None => State(s.data, false, Some(LoadFailed))
    case Some(v) => State(Some(v), false, None)
  }

  datatype Card = Card(amount: nat, colour: string, background: string, status: string)

  datatype View = Skeleton | Failure(message: string) | Shown(card: Card)

  /** The card: skeleton while loading, else the error with a retry button,
      else the styled amount of the current balance. */
  function Show(s: State): (r: View)
    ensures s.loading ==> r == Skeleton
    ensures !s.loading && s.error.Some? && s.error.value != "" ==> r == Failure(s.error.value)
    ensures r.Shown? <==> !s.loading && (s.error.None? || s.error.value == "")
    ensures r.Shown? ==> r.card.amount == Headline(CurrentBalance(s.data))
    ensures r.Shown? ==> r.card.status == Status(CurrentBalance(s.data))
    ensures r.Shown? ==> r.card.colour == Colour(CurrentBalance(s.data))
    ensures r.Shown? ==> r.card.background == Background(CurrentBalance(s.data))
  {
    if s.loading then Skeleton
    else if s.error.Some? && s.error.value != "" then Failure(s.error.value)
    else
      var b := CurrentBalance(s.data);
      Shown(Card(Headline(b), Colour(b), Background(b), Status(b)))
  }

  /** A failed refresh hides the card behind the error, but the data it
      would show is the data fetched before. */
  lemma FailedRefreshKeepsData(s: State)
    ensures Fetch(s, None).data == s.data
    ensures Show(Fetch(s, None)) == Failure(LoadFailed)
  {
  }
}

=== FILE: dashboard_layout.dfy ===
/** The dashboard shell (src/components/layout/DashboardLayout.tsx): which
    navigation tab is highlighted for the current path, and where each tab's
    link leads. */
module DashboardLayout {
  datatype Tab = Products | Actions | Statistics

  /** `getCurrentPage`: the home page and `/products` are the products tab,
      `/statistics` is the statistics tab, and every other path falls through
      to the actions tab. */
  function CurrentTab(path: string): (r: Tab)
    ensures r == Products <==> path == "/" || path == "/products"
    ensures r == Statistics <==> path == "/statistics"
    ensures r == Actions <==> path !in {"/", "/products", "/statistics"}
  {
    if path == "/" || path == "/products" then Products
    else if path == "/statistics" then Statistics
    else Actions
  }

  /** The `to` of each navigation link. */
  function LinkTarget(t: Tab): (r: string)
    ensures |r| >= 1 && r[0] == '/'
  {
    match t
    case Products => "/"
    case Actions => "/actions"
    case Statistics => "/statistics"
  }

  /** Following a tab's link highlights that same tab. */
  lemma FollowingLinkHighlightsIt(t: Tab)
    ensures CurrentTab(LinkTarget(t)) == t
  {
    if t == Actions {
      assert LinkTarget(t)[1] == 'a';
    }
  }

  /** The paths are compared exactly: with a trailing slash, even
      `/products/` or `/statistics/`, any non-empty path falls through to the
      actions tab. */
  lemma TrailingSlashIsActions(path: string)
    requires path != ""
    ensures CurrentTab(path + "/") == Actions
  {
    var p := path + "/";
    assert p[|p| - 1] == '/';
    assert |p| >= 2;
  }
}

=== FILE: entities.dfy ===
/** The records the list pages hold, after `src/types/product.ts` and
    `src/types/action.ts`. The database key `_id` is the field `oid`; the
    separate `id` field is kept, because the pages use both. The Arabic-keyed
    amounts of an action (`وارد` income, `منصرف` outcome, `بيان` statement,
    `رصيد` running balance) are ordinary fields here and opaque string keys in
    the filter bag. */
module Entities {
  import opened Wrappers

  datatype Product = Product(
    oid: string,
    id: string,
    name: string,
    desc: Option<string>,
    amount: int)

  datatype Action = Action(
    oid: string,
    id: string,
    kind: string,
    typeDesc: Option<string>,
    amountType: string,
    amount: int,
    product: Option<string>,
    date: string,
    income: int,
    outcome: int,
    statement: string,
    balance: int)
}

=== FILE: filter_bag.dfy ===
/** The list pages' `Filters` object (`Record<string, any>`): an
    insertion-ordered sequence of entries with distinct keys, as
    `Object.entries` walks an object whose keys are not array indices (the
    pages only use fixed names such as `page` and `searchKey`). */
module FilterBag {
  import opened Wrappers

  /** The values the pages put in a bag. Numbers are integers here. */
  datatype FVal = Str(s: string) | Num(n: int) | Arr(items: seq<string>) | Null | Undef

  type Entry = (string, FVal)
  type Bag = seq<Entry>

  /** The keys in entry order. */
  function Keys(b: Bag): (r: seq<string>)
    ensures |r| == |b|
    ensures forall i :: 0 <= i < |b| ==> r[i] == b[i].0
  {
    if b == [] then [] else [b[0].0] + Keys(b[1..])
  }

  /** No key occurs twice, as in a JavaScript object. */
  predicate UniqueKeys(b: Bag) {
    forall i, j :: 0 <= i < j < |b| ==> b[i].0 != b[j].0
  }

  /** `filters[k]`, with `None` for a key the object does not have. */
  function Lookup(b: Bag, k: string): (r: Option<FVal>)
    ensures r.None? <==> k !in Keys(b)
    ensures r.Some? ==> (k, r.value) in b
    ensures UniqueKeys(b) ==> forall i :: 0 <= i < |b| && b[i].0 == k ==> r == Some(b[i].1)
  {
    if b == [] then None
    else if b[0].0 == k then Some(b[0].1)
    else
      assert forall i :: 1 <= i < |b| ==> b[i] == b[1..][i - 1];
      Lookup(b[1..], k)
  }

  /** `{ ...b, [k]: v }` for a key that is not an array index: an existing
      key keeps its position and takes the new value; a new key is appended
      at the end; every other key keeps its value. */
  function Set(b: Bag, k: string, v: FVal): (r: Bag)
    ensures k in Keys(b) ==> Keys(r) == Keys(b)
    ensures k !in Keys(b) ==> Keys(r) == Keys(b) + [k]
    ensures Lookup(r, k) == Some(v)
    ensures forall k' :: k' != k ==> Lookup(r, k') == Lookup(b, k')
    ensures UniqueKeys(b) ==> UniqueKeys(r)
  {
    if b == [] then [(k, v)]
    else
    assert b == [b[0]] + b[1..];
    if b[0].0 == k then
      SetHead(b[0], b[1..], k, v);
      [(k, v)] + b[1..]
    else
      var rest := Set(b[1..], k, v);
      SetStep(b[0], b[1..], rest, k, v);
      [b[0]] + rest
  }

  /** The base case of `Set`: the first entry holds the key. */
  lemma SetHead(e: Entry, b: Bag, k: string, v: FVal)
    requires e.0 == k
    ensures Keys([(k, v)] + b) == Keys([e] + b)
    ensures Lookup([(k, v)] + b, k) == Some(v)
    ensures forall k' :: k' != k ==> Lookup([(k, v)] + b, k') == Lookup([e] + b, k')
    ensures UniqueKeys([e] + b) ==> UniqueKeys([(k, v)] + b)
  {
    ConsFacts(e, b);
    ConsFacts((k, v), b);
  }

  /** The recursive case of `Set`: putting an entry with a different key in
      front of both bags keeps every property `Set` promises. */
  lemma SetStep(e: Entry, b: Bag, r: Bag, k: string, v: FVal)
    requires e.0 != k
    requires k in Keys(b) ==> Keys(r) == Keys(b)
    requires k !in Keys(b) ==> Keys(r) == Keys(b) + [k]
    requires Lookup(r, k) == Some(v)
    requires forall k' :: k' != k ==> Lookup(r, k') == Lookup(b, k')
    requires UniqueKeys(b) ==> UniqueKeys(r)
    ensures k in Keys([e] + b) ==> Keys([e] + r) == Keys([e] + b)
    ensures k !in Keys([e] + b) ==> Keys([e] + r) == Keys([e] + b) + [k]
    ensures Lookup([e] + r, k) == Some(v)
    ensures forall k' :: k' != k ==> Lookup([e] + r, k') == Lookup([e] + b, k')
    ensures UniqueKeys([e] + b) ==> UniqueKeys([e] + r)
  {
    SetStepKeys(e, b, r, k);
    SetStepLookup(e, b, r, k, v);
    if UniqueKeys([e] + b) {
      SetStepUnique(e, b, r, k);
    }
  }

  lemma SetStepKeys(e: Entry, b: Bag, r: Bag, k: string)
    requires e.0 != k
    requires k in Keys(b) ==> Keys(r) == Keys(b)
    requires k !in Keys(b) ==> Keys(r) == Keys(b) + [k]
    ensures k in Keys([e] + b) ==> Keys([e] + r) == Keys([e] + b)
    ensures k !in Keys([e] + b) ==> Keys([e] + r) == Keys([e] + b) + [k]
  {
    KeysCons(e, b);
    KeysCons(e, r);
  }

  lemma SetStepLookup(e: Entry, b: Bag, r: Bag, k: string, v: FVal)
    requires e.0 != k
    requires Lookup(r, k) == Some(v)
    requires forall k' :: k' != k ==> Lookup(r, k') == Lookup(b, k')
    ensures Lookup([e] + r, k) == Some(v)
    ensures forall k' :: k' != k ==> Lookup([e] + r, k') == Lookup([e] + b, k')
  {
    assert ([e] + b)[1..] == b;
    assert ([e] + r)[1..] == r;
  }

  lemma SetStepUnique(e: Entry, b: Bag, r: Bag, k: string)
    requires e.0 != k
    requires k in Keys(b) ==> Keys(r) == Keys(b)
    requires k !in Keys(b) ==> Keys(r) == Keys(b) + [k]
    requires UniqueKeys(b) ==> UniqueKeys(r)
    requires UniqueKeys([e] + b)
    ensures UniqueKeys([e] + r)
  {
    ConsFacts(e, b);
    ConsFacts(e, r);
    assert e.0 !in Keys(r) by {
      assert k !in Keys(b) ==> e.0 !in Keys(b) + [k];
    }
  }

  lemma KeysCons(e: Entry, b: Bag)
    ensures Keys([e] + b) == [e.0] + Keys(b)
  {
    assert ([e] + b)[1..] == b;
  }

  /** How `Keys`, `Lookup` and `UniqueKeys` see one entry put in front of a bag. */
  lemma ConsFacts(e: Entry, b: Bag)
    ensures Keys([e] + b) == [e.0] + Keys(b)
    ensures forall k :: Lookup([e] + b, k) == if e.0 == k then Some(e.1) else Lookup(b, k)
    ensures UniqueKeys([e] + b) <==> UniqueKeys(b) && e.0 !in Keys(b)
  {
    KeysCons(e, b);
    assert ([e] + b)[1..] == b;
    var c := [e] + b;
    if UniqueKeys(b) && e.0 !in Keys(b) {
      forall i, j | 0 <= i < j < |c|
        ensures c[i].0 != c[j].0
      {
        if i > 0 {
          assert c[i] == b[i - 1] && c[j] == b[j - 1];
        } else {
          assert c[j].0 == Keys(b)[j - 1];
        }
      }
    }
    if UniqueKeys(c) {
      forall i, j | 0 <= i < j < |b|
        ensures b[i].0 != b[j].0
      {
        assert c[i + 1] == b[i] && c[j + 1] == b[j];
      }
    }
  }

  /** The value found for `k` is that of the first entry named `k`. */
  lemma {:induction false} LookupFirst(b: Bag, i: nat, k: string)
    requires i < |b| && b[i].0 == k
    requires forall j :: 0 <= j < i ==> b[j].0 != k
    ensures Lookup(b, k) == Some(b[i].1)
  {
    if i > 0 {
      LookupFirst(b[1..], i - 1, k);
    }
  }

  /** `Set` on a key the bag already has rewrites that one entry in place. */
  lemma {:induction false} SetInPlace(b: Bag, i: nat, k: string, v: FVal)
    requires i < |b| && b[i].0 == k
    requires forall j :: 0 <= j < i ==> b[j].0 != k
    ensures Set(b, k, v) == b[i := (k, v)]
  {
    assert b == [b[0]] + b[1..];
    if i == 0 {
      assert b[0 := (k, v)] == [(k, v)] + b[1..];
    } else {
      var t := b[1..];
      assert forall j :: 0 <= j < i - 1 ==> t[j].0 == b[j + 1].0;
      SetInPlace(t, i - 1, k, v);
      UpdateUnderCons(b[0], t, i, (k, v));
    }
  }

  /** `SetInPlace` for a key first found at index 2. */
  lemma SetAtThird(b: Bag, k: string, v: FVal)
    requires |b| >= 3 && b[0].0 != k && b[1].0 != k && b[2].0 == k
    ensures Set(b, k, v) == b[2 := (k, v)]
  {
    assert forall j :: 0 <= j < 2 ==> b[j].0 != k;
    SetInPlace(b, 2, k, v);
  }

  /** A property read of a merged object finds the first part's entry when
      it has the key, and the second part's otherwise. */
  lemma {:induction false} LookupAppend(a: Bag, c: Bag, k: string)
    ensures Lookup(a + c, k) == if Lookup(a, k).Some? then Lookup(a, k) else Lookup(c, k)
  {
    if a == [] {
      assert a + c == c;
    } else {
      var d := a + c;
      assert d[0] == a[0];
      if a[0].0 != k {
        assert d[1..] == a[1..] + c;
        LookupAppend(a[1..], c, k);
      }
    }
  }

  /** An entry under another key is invisible to a read of `k`. */
  lemma LookupPastOther(a: Bag, e: Entry, c: Bag, k: string)
    requires e.0 != k
    ensures Lookup(a + [e] + c, k) == Lookup(a + c, k)
  {
    assert a + [e] + c == a + ([e] + c);
    LookupAppend(a, [e] + c, k);
    LookupAppend(a, c, k);
    ConsFacts(e, c);
  }

  lemma UpdateUnderCons(e: Entry, t: Bag, i: nat, x: Entry)
    requires 0 < i <= |t|
    ensures ([e] + t)[i := x] == [e] + t[i - 1 := x]
  {
  }
}

=== FILE: js_values.dfy ===
/** The slice of JavaScript value semantics the pages apply to server payloads:
    truthiness, `a || b`, property reads and `Array.isArray`. A payload whose
    arrays hold records of type `E` is a `JsVal<E>`. */
module JsValues {
  import opened Wrappers

  datatype JsVal<E> =
    | Undefined
    | Null
    | Bool(b: bool)
    | Number(n: int)
    | Text(s: string)
    | List(items: seq<E>)
    | Object(fields: map<string, JsVal<E>>)

  /** JavaScript `Boolean(v)`; arrays and objects are truthy even when empty. */
  predicate Truthy<E>(v: JsVal<E>) {
    match v
    case Undefined => false
    case Null => false
    case Bool(b) => b
    case Number(n) => n != 0
    case Text(s) => s != ""
    case List(_) => true
    case Object(_) => true
  }

  /** `a || b`: the first operand when it is truthy, the second otherwise. */
  function Or<E>(a: JsVal<E>, b: JsVal<E>): (r: JsVal<E>)
    ensures r == a || r == b
    ensures Truthy(a) ==> r == a
    ensures !Truthy(a) ==> r == b
    ensures Truthy(r) <==> Truthy(a) || Truthy(b)
  {
    if Truthy(a) then a else b
  }

  /** `v.key`: reading a property of `null` or `undefined` throws a TypeError
      (`None`); a primitive or an array has no such own property, so the read
      gives `undefined`. */
  function Get<E>(v: JsVal<E>, key: string): (r: Option<JsVal<E>>)
    ensures r.None? <==> v.Undefined? || v.Null?
    ensures r.Some? && !v.Object? ==> r.value.Undefined?
    ensures v.Object? && key in v.fields ==> r == Some(v.fields[key])
    ensures v.Object? && key !in v.fields ==> r == Some(Undefined)
  {
    match v
    case Undefined => None
    case Null => None
    case Object(fields) => Some(if key in fields then fields[key] else Undefined)
    case _ => Some(Undefined)
  }

  predicate IsArray<E>(v: JsVal<E>) {
    v.List?
  }

  /** A reply body whose arrays are never looked into. */
  datatype Opaque = Opaque

  type Json = JsVal<Opaque>

  /** `a?.key`: `undefined` when `a` is `null` or `undefined`. */
  function OptGet<E>(v: JsVal<E>, key: string): (r: JsVal<E>)
    ensures (v.Undefined? || v.Null?) ==> r.Undefined?
    ensures v.Object? && key in v.fields ==> r == v.fields[key]
    ensures v.Object? && key !in v.fields ==> r.Undefined?
  {
    match Get(v, key)
    case None => Undefined
    case Some(x) => x
  }
}

=== FILE: list_edits.dfy ===
/** The local list edits the pages apply after a successful add, update or
    delete, before the refetch replaces the list: `[...xs, y]`,
    `xs.map(x => hit(x) ? y : x)` and `xs.filter(keep)`; and the `xs.find(hit)`
    lookup used for display. */
module ListEdits {
  import opened Wrappers

  /** `xs.map(x => hit(x) ? y : x)`: same length; the hit elements become `y`,
      the others stay where they were. */
  function ReplaceWhere<T>(xs: seq<T>, hit: T -> bool, y: T): (r: seq<T>)
    ensures |r| == |xs|
    ensures forall i :: 0 <= i < |xs| ==> r[i] == if hit(xs[i]) then y else xs[i]
  {
    if xs == [] then [] else [if hit(xs[0]) then y else xs[0]] + ReplaceWhere(xs[1..], hit, y)
  }

  /** `xs.filter(keep)`: exactly the kept elements remain. */
  function Keep<T>(xs: seq<T>, keep: T -> bool): (r: seq<T>)
    ensures |r| <= |xs|
    ensures forall i :: 0 <= i < |r| ==> r[i] in xs && keep(r[i])
    ensures forall i :: 0 <= i < |xs| && keep(xs[i]) ==> xs[i] in r
    ensures (forall i :: 0 <= i < |xs| ==> keep(xs[i])) ==> r == xs
  {
    if xs == [] then []
    else if keep(xs[0]) then [xs[0]] + Keep(xs[1..], keep)
    else Keep(xs[1..], keep)
  }

  /** Filtering keeps order: it distributes over concatenation. */
  lemma {:induction false} KeepConcat<T>(a: seq<T>, b: seq<T>, keep: T -> bool)
    ensures Keep(a + b, keep) == Keep(a, keep) + Keep(b, keep)
  {
    if a == [] {
      assert a + b == b;
    } else {
      assert (a + b)[1..] == a[1..] + b;
      KeepConcat(a[1..], b, keep);
    }
  }

  /** `[...xs, y]`: one longer, `y` last, the rest untouched. */
  function Append<T>(xs: seq<T>, y: T): (r: seq<T>)
    ensures |r| == |xs| + 1 && r[|xs|] == y && r[..|xs|] == xs
  {
    xs + [y]
  }

  /** `xs.find(hit)` as an index: the first element that is hit, if any. */
  function FindFirst<T>(xs: seq<T>, hit: T -> bool): (r: Option<nat>)
    ensures r.None? <==> forall i :: 0 <= i < |xs| ==> !hit(xs[i])
    ensures r.Some? ==> r.value < |xs| && hit(xs[r.value])
    ensures r.Some? ==> forall j :: 0 <= j < r.value ==> !hit(xs[j])
  {
    if xs == [] then None
    else if hit(xs[0]) then Some(0)
    else match FindFirst(xs[1..], hit)
      case None => None
      case Some(i) => Some(i + 1)
  }
}

=== FILE: list_query.dfy ===
/** The query state both list pages keep: the `currentPage` number given to
    the pagination control and the filter bag that is serialised for a fetch.
    The two are separate React states, so they agree only as far as the
    handlers keep them in step. */
module ListQuery {
  import opened Wrappers
  import opened Strings
  import opened FilterBag
  import opened UrlEncoding
  import opened SearchParams

  const PageKey := "page"

  datatype Query = Query(currentPage: int, filters: Bag)

  /** The page number shown and the `page` entry sent agree. */
  predicate InSync(q: Query) {
    Lookup(q.filters, PageKey) == Some(Num(q.currentPage))
  }

  /** The `onPageChange` callback of both pages: `setCurrentPage(page)` and
      `setFilters({ ...filters, page })`. Both hold the new page afterwards;
      every other filter keeps its value and every key its position. */
  function ChangePage(q: Query, page: int): (r: Query)
    ensures r.currentPage == page
    ensures Lookup(r.filters, PageKey) == Some(Num(page))
    ensures InSync(r)
    ensures forall k :: k != PageKey ==> Lookup(r.filters, k) == Lookup(q.filters, k)
    ensures PageKey in Keys(q.filters) ==> Keys(r.filters) == Keys(q.filters)
    ensures UniqueKeys(q.filters) ==> UniqueKeys(r.filters)
  {
    Query(page, Set(q.filters, PageKey, Num(page)))
  }

  /** `setFilters(prev => ({ ...prev, [key]: value }))`: exactly one filter
      changes; the page number and every other entry, `page` included, stay. */
  function SetFilter(q: Query, key: string, value: FVal): (r: Query)
    ensures r.currentPage == q.currentPage
    ensures Lookup(r.filters, key) == Some(value)
    ensures forall k :: k != key ==> Lookup(r.filters, k) == Lookup(q.filters, k)
    ensures key in Keys(q.filters) ==> Keys(r.filters) == Keys(q.filters)
    ensures UniqueKeys(q.filters) ==> UniqueKeys(r.filters)
    ensures key != PageKey ==> (InSync(r) <==> InSync(q))
  {
    Query(q.currentPage, Set(q.filters, key, value))
  }

  /** Both pages' bags start with `page` 1 and `size` 10, and those two
      entries always yield `page=1&size=10`. */
  lemma PageSizePairs(c: Bag, hasSearch: bool)
    requires |c| == 2 && c[0] == ("page", Num(1)) && c[1] == ("size", Num(10))
    ensures RawPairs(c, hasSearch) == [("page", "1"), ("size", "10")]
  {
    RawPairsCons(c, hasSearch);
    RawPairsCons(c[1..], hasSearch);
    assert c[1..][1..] == [];
    assert IntToString(1) == "1";
    assert IntToString(10) == "10";
  }

  /** A bag whose entries after the leading `page` 1 and `size` 10 are all
      silent serialises to those two pairs alone. */
  lemma PageSizeOnly(b: Bag, hasSearch: bool)
    requires HasSearch(b) == Some(hasSearch)
    requires |b| >= 2 && b[0] == ("page", Num(1)) && b[1] == ("size", Num(10))
    requires forall i :: 2 <= i < |b| ==> Silent(b[i], hasSearch)
    ensures BuildSearchParams(b) == Some("page=1&size=10")
  {
    var c := b[..2];
    PageSizePairs(c, hasSearch);
    PageSizeQuery(RawPairs(c, hasSearch));
    BuildFromPrefix(b, 2, hasSearch, RawPairs(c, hasSearch), "page=1&size=10");
  }

  lemma PageSizeQuery(ps: seq<Pair>)
    requires |ps| == 2 && ps[0] == ("page", "1") && ps[1] == ("size", "10")
    ensures QueryString(ps) == "page=1&size=10"
  {
    var a, b := [ps[0]], [ps[1]];
    assert ps == a + b;
    QueryStringAppend(a, b);
    PlainPair(ps[0], "page=1");
    PlainPair(ps[1], "size=10");
    JoinTwo(QueryString(a), QueryString(b), "page=1&size=10");
  }

  /** The two pairs above are form-safe, so each is its own query string. */
  lemma PlainPair(p: Pair, text: string)
    requires (p, text) in {(("page", "1"), "page=1"), (("size", "10"), "size=10")}
    ensures QueryString([p]) == text
  {
    SafeLiteral(p.0);
    SafeLiteral(p.1);
    QueryStringOne(p);
    PairText(p.0, p.1, text);
  }

  lemma SafeLiteral(s: string)
    requires s in {"page", "size", "1", "10"}
    ensures AllFormSafe(s)
  {
  }

  lemma PairText(name: string, value: string, text: string)
    requires (name, value, text) in {("page", "1", "page=1"), ("size", "10", "size=10")}
    ensures name + "=" + value == text
  {
  }

  lemma JoinTwo(a: string, b: string, text: string)
    requires a == "page=1" && b == "size=10" && text == "page=1&size=10"
    ensures a + "&" + b == text
  {
  }
}

=== FILE: pagination.dfy ===
/** The pagination control (src/components/PaginationComponent.tsx): the
    number of pages for a total at ten rows a page, the numbered links, the
    previous/next buttons and which link is highlighted. The control only
    reports a page through `onPageChange`; here that report is the result. */
module Pagination {
  import opened Wrappers

  const PageSize := 10

  /** `Math.ceil(total / 10)`. A total of 0 gives 0 pages, so the list then
      shows no link at all. */
  function NumOfPages(total: int): (r: int)
    ensures PageSize * (r - 1) < total <= PageSize * r
    ensures total >= 0 ==> r >= 0
    ensures total >= 0 ==> (total == 0 <==> r == 0)
  {
    if total >= 0 then (total + PageSize - 1) / PageSize else -((-total) / PageSize)
  }

  /** The ceiling is the least page count that holds every row. */
  lemma NumOfPagesIsLeast(total: int, pages: int)
    requires total <= PageSize * pages
    ensures NumOfPages(total) <= pages
  {
  }

  /** The page numbers `Array.from({ length: n }, (_, i) => i + 1)` lists: a
      negative length counts as none. */
  function Pages(n: int): (r: seq<int>)
    decreases if n > 0 then n else 0
  {
    if n <= 0 then [] else Pages(n - 1) + [n]
  }

  lemma {:induction false} PagesAreOneToN(n: int)
    ensures |Pages(n)| == (if n > 0 then n else 0)
    ensures forall i :: 0 <= i < |Pages(n)| ==> Pages(n)[i] == i + 1
    decreases if n > 0 then n else 0
  {
    if n > 0 {
      PagesAreOneToN(n - 1);
    }
  }

  /** Builds the page list with a loop, as `Array.from` does: link `i`
      (counting from 0) carries page `i + 1`. */
  method BuildPageList(n: int) returns (r: seq<int>)
    ensures |r| == (if n > 0 then n else 0)
    ensures forall i :: 0 <= i < |r| ==> r[i] == i + 1
    ensures forall i, j :: 0 <= i < j < |r| ==> r[i] < r[j]
    ensures r == Pages(n)
  {
    r := [];
    var k := 0;
    while k < n
      invariant 0 <= k && (n > 0 ==> k <= n) && (n <= 0 ==> k == 0)
      invariant r == Pages(k)
      invariant |r| == k && forall i :: 0 <= i < k ==> r[i] == i + 1
    {
      r := r + [k + 1];
      k := k + 1;
    }
  }

  /** `handlePrevious`: the page before, only when there is one. */
  function Previous(currentPage: int): (r: Option<int>)
    ensures r.Some? <==> currentPage > 1
    ensures r.Some? ==> r.value == currentPage - 1
  {
    if currentPage > 1 then Some(currentPage - 1) else None
  }

  /** `handleNext`: the page after, only while it is within the count. */
  function Next(currentPage: int, numOfPages: int): (r: Option<int>)
    ensures r.Some? <==> currentPage < numOfPages
    ensures r.Some? ==> r.value == currentPage + 1
  {
    if currentPage < numOfPages then Some(currentPage + 1) else None
  }

  /** From a page inside `1..n`, the two buttons never leave that range. */
  lemma StepsStayInRange(currentPage: int, n: int)
    requires 1 <= currentPage <= n
    ensures Previous(currentPage).Some? ==> 1 <= Previous(currentPage).value <= n
    ensures Next(currentPage, n).Some? ==> 1 <= Next(currentPage, n).value <= n
  {
  }

  /** Clicking link `i` reports the page number it shows. */
  function ClickLink(pages: seq<int>, i: nat): (r: int)
    requires i < |pages|
    ensures r in pages
  {
    pages[i]
  }

  lemma ClickReportsShownPage(n: int, i: nat)
    requires i < |Pages(n)|
    ensures ClickLink(Pages(n), i) == i + 1
  {
    PagesAreOneToN(n);
  }

  /** How many links are highlighted: those whose page is `currentPage`. */
  function ActiveCount(pages: seq<int>, currentPage: int): (r: nat)
    ensures r <= |pages|
    ensures r == 0 <==> currentPage !in pages
  {
    if pages == [] then 0
    else
      var last := if pages[|pages| - 1] == currentPage then 1 else 0;
      ActiveCount(pages[..|pages| - 1], currentPage) + last
  }

  /** Exactly one link is highlighted when the current page is within
      `1..n`, and none otherwise. */
  lemma {:induction false} ExactlyOneActive(n: int, currentPage: int)
    ensures ActiveCount(Pages(n), currentPage) == (if 1 <= currentPage <= n then 1 else 0)
    decreases if n > 0 then n else 0
  {
    if n > 0 {
      var p := Pages(n);
      assert p[..|p| - 1] == Pages(n - 1);
      ExactlyOneActive(n - 1, currentPage);
    }
  }
}

=== FILE: products_page.dfy ===
/** The products list page (src/pages/ProductsPage.tsx): its filter bag, the
    search and page handlers, the normalisation of the fetch reply, and the
    local list edits after add, update and delete. */
module ProductsPage {
  import opened Wrappers
  import opened Strings
  import opened JsValues
  import opened Entities
  import opened FilterBag
  import opened UrlEncoding
  import opened SearchParams
  import opened ListQuery
  import opened ListEdits

  /** The bag the page starts with: a search over `name` and `desc` that is
      not sent until the search text is non-blank. */
  function InitialFilters(currentPage: int): Bag {
    [ ("page", Num(currentPage)), ("size", Num(10)), (SearchKey, Str("")),
      (SearchFields, Arr(["name", "desc"])) ]
  }

  const Initial := Query(1, InitialFilters(1))

  /** The search box's `onChange`: `searchKey` takes the typed text; `page`,
      `searchFields` and the page number stay. */
  function OnSearchInput(q: Query, text: string): (r: Query)
    ensures r.currentPage == q.currentPage
    ensures Lookup(r.filters, SearchKey) == Some(Str(text))
    ensures Lookup(r.filters, PageKey) == Lookup(q.filters, PageKey)
    ensures Lookup(r.filters, SearchFields) == Lookup(q.filters, SearchFields)
    ensures forall k :: k != SearchKey ==> Lookup(r.filters, k) == Lookup(q.filters, k)
    ensures SearchKey in Keys(q.filters) ==> Keys(r.filters) == Keys(q.filters)
    ensures InSync(r) <==> InSync(q)
  {
    SetFilter(q, SearchKey, Str(text))
  }

  /* ---- The serialised filters ---- */

  /** On first render only the page and the page size are sent: the search
      fields stay back while the search text is empty. */
  lemma InitialQueryString()
    ensures BuildSearchParams(Initial.filters) == Some("page=1&size=10")
  {
    var b := InitialFilters(1);
    InitialNoSearch(b);
    InitialTailSilent(b);
    PageSizeOnly(b, false);
  }

  lemma InitialNoSearch(b: Bag)
    requires b == InitialFilters(1)
    ensures HasSearch(b) == Some(false)
  {
    LookupFirst(b, 2, SearchKey);
    assert Blank("");
  }

  lemma InitialTailSilent(b: Bag)
    requires b == InitialFilters(1)
    ensures b[0] == ("page", Num(1)) && b[1] == ("size", Num(10))
    ensures forall i :: 2 <= i < |b| ==> Silent(b[i], false)
  {
  }

  /** The query string sent while searching for `text`. The text is
      encoded twice, as every value is; the other names and values are
      plain letters and digits. */
  function SearchingQuery(text: string): string {
    "page=1&size=10" + "&searchKey=" + Enc(text) + "&searchFields=name" + "&searchFields=desc"
  }

  /** Typing any non-blank text from the initial state sends it after the
      page pairs, followed by one `searchFields` pair per field. */
  lemma SearchQueryString(text: string)
    requires !Blank(text)
    ensures BuildSearchParams(OnSearchInput(Initial, text).filters)
         == Some(SearchingQuery(text))
  {
    var r := OnSearchInput(Initial, text).filters;
    SearchBag(r, text);
    SearchHasSearch(r, text);
    assert Blank("");
    SearchPairs(r, text);
    SearchQuery(RawPairs(r, true), text);
  }

  /** The search text rewrites the third entry in place. */
  lemma SearchBag(r: Bag, text: string)
    requires r == OnSearchInput(Initial, text).filters
    ensures |r| == 4 && r[0] == ("page", Num(1)) && r[1] == ("size", Num(10))
    ensures r[2] == (SearchKey, Str(text)) && r[3] == (SearchFields, Arr(["name", "desc"]))
  {
    var b := InitialFilters(1);
    assert r == Set(b, SearchKey, Str(text));
    SetAtThird(b, SearchKey, Str(text));
  }

  lemma SearchHasSearch(r: Bag, text: string)
    requires !Blank(text)
    requires |r| == 4 && r[0].0 == "page" && r[1].0 == "size" && r[2] == (SearchKey, Str(text))
    ensures HasSearch(r) == Some(true)
  {
    LookupFirst(r, 2, SearchKey);
  }

  /** The pairs of the searching bag: the page pairs, the text, then the
      two fields in array order. */
  lemma SearchPairs(r: Bag, text: string)
    requires text != ""
    requires |r| == 4 && r[0] == ("page", Num(1)) && r[1] == ("size", Num(10))
    requires r[2] == (SearchKey, Str(text)) && r[3] == (SearchFields, Arr(["name", "desc"]))
    ensures RawPairs(r, true)
         == [("page", "1"), ("size", "10")]
          + ([(SearchKey, text)] + [(SearchFields, "name"), (SearchFields, "desc")])
  {
    assert r == r[..2] + r[2..];
    RawPairsAppend(r[..2], r[2..], true);
    PageSizePairs(r[..2], true);
    RawPairsCons(r[2..], true);
    RawPairsCons(r[3..], true);
    assert r[3..][1..] == [];
    FieldsPairs(EntryPairs(SearchFields, Arr(["name", "desc"]), true));
  }

  lemma FieldsPairs(e: seq<Pair>)
    requires e == EntryPairs(SearchFields, Arr(["name", "desc"]), true)
    ensures e == [(SearchFields, "name"), (SearchFields, "desc")]
  {
  }

  /** Serialising those pairs: only the search text is changed by the
      encoders. */
  lemma SearchQuery(ps: seq<Pair>, text: string)
    requires ps == [("page", "1"), ("size", "10")]
                 + ([(SearchKey, text)] + [(SearchFields, "name"), (SearchFields, "desc")])
    ensures QueryString(ps) == SearchingQuery(text)
  {
    var a, f := [("page", "1"), ("size", "10")], [(SearchFields, "name"), (SearchFields, "desc")];
    QueryStringAround(a, (SearchKey, text), f);
    PageSizeQuery(a);
    FieldsQuery(f);
    SearchKeyPlain();
    SearchText(QueryString(a), Enc(text), QueryString(f));
  }

  lemma SearchKeyPlain()
    ensures Enc(SearchKey) == SearchKey
  {
    assert AllFormSafe(SearchKey);
    EncIdentityOnSafe(SearchKey);
  }

  lemma FieldsQuery(f: seq<Pair>)
    requires f == [(SearchFields, "name"), (SearchFields, "desc")]
    ensures QueryString(f) == "searchFields=name" + "&searchFields=desc"
  {
    assert AllFormSafe(SearchFields) && AllFormSafe("name") && AllFormSafe("desc");
    assert f == [f[0]] + [f[1]];
    QueryStringCons(f[0], [f[1]]);
    QueryStringOne(f[1]);
    FieldsText(QueryString([f[1]]));
  }

  lemma FieldsText(d: string)
    requires d == "searchFields" + "=" + "desc"
    ensures "searchFields" + "=" + "name" + "&" + d == "searchFields=name" + "&searchFields=desc"
  {
  }

  /** The pieces in the order `toString()` joins them. */
  lemma SearchText(a: string, e: string, f: string)
    requires a == "page=1&size=10" && f == "searchFields=name" + "&searchFields=desc"
    ensures a + "&" + (SearchKey + "=" + e + "&" + f) == "page=1&size=10" + "&searchKey=" + e + "&searchFields=name" + "&searchFields=desc"
  {
    assert a + "&" + (SearchKey + "=" + e + "&" + f) == a + ("&" + SearchKey + "=") + e + ("&" + f);
    assert "&" + SearchKey + "=" == "&searchKey=";
  }

  /** A blank search text (empty or only spaces) still sends `searchKey`
      when it is non-empty, but never the search fields. */
  lemma BlankSearchSendsNoFields(q: Query, text: string)
    requires Blank(text) && UniqueKeys(q.filters)
    ensures HasSearch(OnSearchInput(q, text).filters) == Some(false)
    ensures Only(RawPairs(OnSearchInput(q, text).filters, false), SearchFields) == []
  {
    var b := OnSearchInput(q, text).filters;
    RawPairsOfKey(b, SearchFields, false);
  }

  /* ---- Fetching ---- */

  /** The page's fetched state: the product list is always an array here. */
  datatype Catalog = Catalog(products: seq<Product>, total: JsVal<Product>, loading: bool)

  /** `fetchProducts`. `reply` is what `getAll` resolved to, or `None` when
      it rejected. The list is `reply.products || reply` when that is an
      array and `[]` otherwise; the total is `reply.productsCount || 0`.
      A rejected call, or a `null` or `undefined` reply (its property read
      throws), empties the list and keeps the old total. */
  function FetchProducts(s: Catalog, reply: Option<JsVal<Product>>): (r: Catalog)
    ensures !r.loading
    ensures reply.None? || reply == Some(JsVal.Undefined) || reply == Some(JsVal.Null) ==>
              r.products == [] && r.total == s.total
    ensures reply.Some? && reply.value.List? ==>
              r.products == reply.value.items && r.total == Number(0)
    ensures reply.Some? && reply.value.Object? && "products" in reply.value.fields
            && reply.value.fields["products"].List? ==>
              r.products == reply.value.fields["products"].items
    ensures reply.Some? && reply.value.Object?
            && ("products" !in reply.value.fields || !reply.value.fields["products"].List?) ==>
              r.products == []
    ensures reply.Some? && !reply.value.Undefined? && !reply.value.Null? ==>
              Truthy(r.total) || r.total == Number(0)
    ensures reply.Some? && reply.value.Object? ==>
              r.total == Or(OptGet(reply.value, "productsCount"), Number(0))
    ensures reply.Some? && !reply.value.Object? && !reply.value.List?
            && !reply.value.Undefined? && !reply.value.Null? ==>
              r.products == [] && r.total == Number(0)
  {
    match reply
    case None => s.(products := [], loading := false)
    case Some(response) =>
      match Get(response, "products")
      case None => s.(products := [], loading := false)
      case Some(field) =>
        var data := Or(field, response);
        var count := Get(response, "productsCount").value;
        Catalog(if IsArray(data) then data.items else [], Or(count, Number(0)), false)
  }

  /** A zero or missing count is shown as 0. */
  lemma FetchProductsCountFallback(s: Catalog, fields: map<string, JsVal<Product>>)
    requires "productsCount" !in fields || !Truthy(fields["productsCount"])
    ensures FetchProducts(s, Some(Object(fields))).total == Number(0)
  {
  }

  /** The two reply shapes the page accepts give the same list. */
  lemma ReplyShapesAgree(s: Catalog, items: seq<Product>, fields: map<string, JsVal<Product>>)
    requires "products" in fields && fields["products"] == List(items)
    ensures FetchProducts(s, Some(List(items))).products
         == FetchProducts(s, Some(Object(fields))).products
  {
  }

  /* ---- Local list edits ---- */

  /** What `handleSubmitProduct` leaves behind: the list, the product being
      edited and whether the form dialog is open. */
  datatype Submitted = Submitted(products: seq<Product>, editing: Option<Product>, modalOpen: bool)

  /** `handleSubmitProduct`. `result` is the `product` of the server's reply,
      or `None` when the call rejected, in which case nothing changes. An
      update replaces every row whose `_id` matches; an add appends. Either
      success closes the dialog; unlike the actions page, `editingProduct` is
      not cleared. */
  function SubmitProduct(products: seq<Product>, editing: Option<Product>, modalOpen: bool,
                         result: Option<Product>): (r: Submitted)
    ensures result.None? ==> r == Submitted(products, editing, modalOpen)
    ensures result.Some? ==> !r.modalOpen && r.editing == editing
    ensures result.Some? && editing.None? ==>
              |r.products| == |products| + 1 && r.products[..|products|] == products
              && r.products[|products|] == result.value
    ensures result.Some? && editing.Some? ==>
              |r.products| == |products|
              && forall i :: 0 <= i < |products| ==>
                   r.products[i] == (if products[i].oid == editing.value.oid then result.value
                                     else products[i])
  {
    match result
    case None => Submitted(products, editing, modalOpen)
    case Some(p) =>
      if editing.Some? then
        Submitted(ReplaceWhere(products, (x: Product) => x.oid == editing.value.oid, p), editing, false)
      else
        Submitted(Append(products, p), editing, false)
  }

  /** An update touches only the matching rows: a row with another `_id` is
      the same before and after. */
  lemma UpdateLeavesOtherRows(products: seq<Product>, editing: Product, p: Product, i: nat)
    requires i < |products| && products[i].oid != editing.oid
    ensures SubmitProduct(products, Some(editing), true, Some(p)).products[i] == products[i]
  {
  }

  /** What `confirmDelete` leaves behind. */
  datatype Deleted = Deleted(products: seq<Product>, pending: Option<string>, alertOpen: bool)

  /** `confirmDelete`. With no pending id (`null` or `""`) it returns at once;
      if the server call rejects (`ok` false) nothing changes; otherwise the
      products whose `_id` differs from the pending value are kept, in order,
      and the alert closes. */
  function ConfirmDelete(products: seq<Product>, pending: Option<string>, alertOpen: bool,
                         ok: bool): (r: Deleted)
    ensures pending.None? || pending == Some("") || !ok ==>
              r == Deleted(products, pending, alertOpen)
    ensures pending.Some? && pending.value != "" && ok ==>
              r.pending.None? && !r.alertOpen
              && (forall i :: 0 <= i < |r.products| ==>
                    r.products[i] in products && r.products[i].oid != pending.value)
              && (forall i :: 0 <= i < |products| && products[i].oid != pending.value ==>
                    products[i] in r.products)
  {
    match pending
    case None => Deleted(products, pending, alertOpen)
    case Some(target) =>
      if target == "" || !ok then Deleted(products, pending, alertOpen)
      else Deleted(Keep(products, (p: Product) => p.oid != target), None, false)
  }

  /** The table's delete button hands over a product's `id`, but the filter
      compares `_id`: a product whose `id` differs from its `_id` stays. */
  lemma DeleteByIdKeepsRow(products: seq<Product>, i: nat)
    requires i < |products| && products[i].id != "" && products[i].id != products[i].oid
    ensures products[i] in ConfirmDelete(products, Some(products[i].id), true, true).products
  {
  }

  /** Deleting keeps the survivors' order: it splits over the list. */
  lemma DeleteKeepsOrder(a: seq<Product>, b: seq<Product>, target: string)
    requires target != ""
    ensures ConfirmDelete(a + b, Some(target), true, true).products
         == ConfirmDelete(a, Some(target), true, true).products
          + ConfirmDelete(b, Some(target), true, true).products
  {
    KeepConcat(a, b, (x: Product) => x.oid != target);
  }
}

=== FILE: search_params.dfy ===
/** `buildSearchParams`, written identically in the actions page
    (src/pages/ActionsPage.tsx) and the products page
    (src/pages/ProductsPage.tsx): a filter bag becomes a query string.
    Entries are visited in bag order; empty values are skipped, `searchFields`
    is skipped unless `searchKey` has a non-blank text, an array yields one
    pair per element, and every name and value is encoded twice (see
    `UrlEncoding.Enc`). */
module SearchParams {
  import opened Wrappers
  import opened Strings
  import opened FilterBag
  import opened UrlEncoding

  const SearchKey := "searchKey"
  const SearchFields := "searchFields"

  /** A (name, value) pair handed to `URLSearchParams.append`, before encoding. */
  type Pair = (string, string)

  /** `Boolean(filters.searchKey?.trim())`. A number or an array has no `trim`
      method, so calling it throws a TypeError: that is `None`. */
  function HasSearch(b: Bag): (r: Option<bool>)
    ensures r.None? <==> Lookup(b, SearchKey).Some? && (Lookup(b, SearchKey).value.Num? || Lookup(b, SearchKey).value.Arr?)
    ensures r == Some(true) <==> Lookup(b, SearchKey).Some? && Lookup(b, SearchKey).value.Str? && !Blank(Lookup(b, SearchKey).value.s)
  {
    match Lookup(b, SearchKey)
    case None => Some(false)
    case Some(Str(s)) => Some(Trim(s) != "")
    case Some(Null) => Some(false)
    case Some(Undef) => Some(false)
    case Some(Num(_)) => None
    case Some(Arr(_)) => None
  }

  /** The values the page refuses to send: `""`, `null`, `undefined`, `[]`. */
  predicate IsEmptyValue(v: FVal) {
    v == Str("") || v.Null? || v.Undef? || v == Arr([])
  }

  /** An entry the page skips: an empty value, or `searchFields` without a search. */
  predicate Silent(e: Entry, hasSearch: bool) {
    (e.0 == SearchFields && !hasSearch) || IsEmptyValue(e.1)
  }

  /** The pairs one entry appends. */
  function EntryPairs(k: string, v: FVal, hasSearch: bool): (r: seq<Pair>)
    ensures r == [] <==> Silent((k, v), hasSearch)
    ensures forall i :: 0 <= i < |r| ==> r[i].0 == k
    ensures r != [] && v.Arr? ==> |r| == |v.items| && forall i :: 0 <= i < |r| ==> r[i].1 == v.items[i]
    ensures r != [] && v.Str? ==> r == [(k, v.s)]
    ensures r != [] && v.Num? ==> r == [(k, IntToString(v.n))]
  {
    if k == SearchFields && !hasSearch then []
    else
      match v
      case Str(s) => if s == "" then [] else [(k, s)]
      case Num(n) => [(k, IntToString(n))]
      case Arr(xs) => seq(|xs|, i requires 0 <= i < |xs| => (k, xs[i]))
      case Null => []
      case Undef => []
  }

  /** Every pair the bag yields, in entry order. Each pair's name is a key of
      the bag, and without a search no pair is named `searchFields`. */
  function RawPairs(b: Bag, hasSearch: bool): (r: seq<Pair>)
    ensures forall i :: 0 <= i < |r| ==> r[i].0 in Keys(b)
    ensures !hasSearch ==> forall i :: 0 <= i < |r| ==> r[i].0 != SearchFields
  {
    if b == [] then []
    else
      var h := EntryPairs(b[0].0, b[0].1, hasSearch);
      var t := RawPairs(b[1..], hasSearch);
      assert b == [b[0]] + b[1..];
      ConsFacts(b[0], b[1..]);
      PairNamesConcat(h, t, b[0].0, Keys(b[1..]), hasSearch);
      h + t
  }

  lemma PairNamesConcat(h: seq<Pair>, t: seq<Pair>, k: string, ks: seq<string>, hasSearch: bool)
    requires forall i :: 0 <= i < |h| ==> h[i].0 == k
    requires forall i :: 0 <= i < |t| ==> t[i].0 in ks
    requires !hasSearch && k == SearchFields ==> h == []
    requires !hasSearch ==> forall i :: 0 <= i < |t| ==> t[i].0 != SearchFields
    ensures forall i :: 0 <= i < |h + t| ==> (h + t)[i].0 in [k] + ks
    ensures !hasSearch ==> forall i :: 0 <= i < |h + t| ==> (h + t)[i].0 != SearchFields
  {
    forall i | 0 <= i < |h + t|
      ensures (h + t)[i].0 in [k] + ks
      ensures !hasSearch ==> (h + t)[i].0 != SearchFields
    {
      if i < |h| {
        assert (h + t)[i] == h[i];
      } else {
        assert (h + t)[i] == t[i - |h|];
      }
    }
  }

  /** A run of entries the page skips yields no pairs at all. */
  lemma {:induction false} SilentEntries(b: Bag, hasSearch: bool)
    requires forall i :: 0 <= i < |b| ==> Silent(b[i], hasSearch)
    ensures RawPairs(b, hasSearch) == []
  {
    if b != [] {
      SilentEntries(b[1..], hasSearch);
    }
  }

  /** Skipped entries after position `n` add nothing to the pairs. */
  lemma SilentSuffix(b: Bag, n: nat, hasSearch: bool)
    requires n <= |b|
    requires forall i :: n <= i < |b| ==> Silent(b[i], hasSearch)
    ensures RawPairs(b, hasSearch) == RawPairs(b[..n], hasSearch)
  {
    assert b == b[..n] + b[n..];
    RawPairsAppend(b[..n], b[n..], hasSearch);
    SilentEntries(b[n..], hasSearch);
  }

  /** The pairs of one entry followed by the rest. */
  lemma RawPairsCons(b: Bag, hasSearch: bool)
    requires b != []
    ensures RawPairs(b, hasSearch) == EntryPairs(b[0].0, b[0].1, hasSearch) + RawPairs(b[1..], hasSearch)
  {
  }

  /** The pairs of `ps` named `k`, in order. */
  function Only(ps: seq<Pair>, k: string): seq<Pair> {
    if ps == [] then []
    else if ps[0].0 == k then [ps[0]] + Only(ps[1..], k)
    else Only(ps[1..], k)
  }

  lemma {:induction false} OnlyConcat(a: seq<Pair>, b: seq<Pair>, k: string)
    ensures Only(a + b, k) == Only(a, k) + Only(b, k)
  {
    if a == [] {
      assert a + b == b;
    } else {
      assert (a + b)[1..] == a[1..] + b;
      OnlyConcat(a[1..], b, k);
    }
  }

  lemma {:induction false} OnlyUniform(ps: seq<Pair>, k: string, k': string)
    requires forall i :: 0 <= i < |ps| ==> ps[i].0 == k'
    ensures Only(ps, k) == if k == k' then ps else []
  {
    if ps != [] {
      OnlyUniform(ps[1..], k, k');
      if k == k' {
        assert ps == [ps[0]] + ps[1..];
      }
    }
  }

  /** Visiting entries in order: the pairs of a concatenated bag are the pairs
      of the first part followed by those of the second. */
  lemma {:induction false} RawPairsAppend(a: Bag, b: Bag, hasSearch: bool)
    ensures RawPairs(a + b, hasSearch) == RawPairs(a, hasSearch) + RawPairs(b, hasSearch)
  {
    if a == [] {
      assert a + b == b;
    } else {
      assert (a + b)[1..] == a[1..] + b;
      assert (a + b)[0] == a[0];
      RawPairsAppend(a[1..], b, hasSearch);
    }
  }

  /** In a bag with distinct keys, the pairs named `k` are exactly the pairs
      of `k`'s own entry, and there are none when `k` is absent. */
  lemma {:induction false} RawPairsOfKey(b: Bag, k: string, hasSearch: bool)
    requires UniqueKeys(b)
    ensures Only(RawPairs(b, hasSearch), k) ==
      match Lookup(b, k)
      case None => []
      case Some(v) => EntryPairs(k, v, hasSearch)
  {
    if b != [] {
      var e := b[0];
      var rest := b[1..];
      var h := EntryPairs(e.0, e.1, hasSearch);
      assert UniqueKeys(rest) by {
        assert forall i :: 0 <= i < |rest| ==> rest[i] == b[i + 1];
      }
      OnlyConcat(h, RawPairs(rest, hasSearch), k);
      OnlyUniform(h, k, e.0);
      RawPairsOfKey(rest, k, hasSearch);
      if e.0 == k {
        assert k !in Keys(rest) by {
          assert forall i :: 0 <= i < |rest| ==> rest[i] == b[i + 1];
        }
      }
    }
  }

  /** One pair as it appears in the query string. */
  function Component(p: Pair): string {
    Enc(p.0) + "=" + Enc(p.1)
  }

  /** `URLSearchParams.toString()` after `append`ing `ps` in order: the encoded
      pairs joined by `&`. */
  function QueryString(ps: seq<Pair>): string {
    Join("&", Components(ps))
  }

  /** The encoded pairs, one per pair, in order. */
  function Components(ps: seq<Pair>): (r: seq<string>)
    ensures |r| == |ps| && forall i :: 0 <= i < |ps| ==> r[i] == Component(ps[i])
  {
    seq(|ps|, i requires 0 <= i < |ps| => Component(ps[i]))
  }

  /** A single pair is its own encoded component. */
  lemma QueryStringSingle(p: Pair)
    ensures QueryString([p]) == Enc(p.0) + "=" + Enc(p.1)
  {
    assert Components([p]) == [Component(p)];
  }

  /** A single pair of safe characters appears as `name=value`, unchanged. */
  lemma QueryStringOne(p: Pair)
    requires AllFormSafe(p.0) && AllFormSafe(p.1)
    ensures QueryString([p]) == p.0 + "=" + p.1
  {
    EncIdentityOnSafe(p.0);
    EncIdentityOnSafe(p.1);
    QueryStringSingle(p);
  }

  /** A safe pair in front of further pairs: `name=value&` and the rest. */
  lemma QueryStringCons(p: Pair, rest: seq<Pair>)
    requires AllFormSafe(p.0) && AllFormSafe(p.1) && rest != []
    ensures QueryString([p] + rest) == p.0 + "=" + p.1 + "&" + QueryString(rest)
  {
    QueryStringOne(p);
    QueryStringAppend([p], rest);
  }

  /** One pair between two non-empty runs of pairs. */
  lemma QueryStringAround(a: seq<Pair>, p: Pair, f: seq<Pair>)
    requires a != [] && f != []
    ensures QueryString(a + ([p] + f)) == QueryString(a) + "&" + (Enc(p.0) + "=" + Enc(p.1) + "&" + QueryString(f))
  {
    QueryStringAppend(a, [p] + f);
    QueryStringAppend([p], f);
    QueryStringSingle(p);
  }

  /** Appending pairs extends the query string after an `&`. */
  lemma {:induction false} QueryStringAppend(a: seq<Pair>, b: seq<Pair>)
    requires a != [] && b != []
    ensures QueryString(a + b) == QueryString(a) + "&" + QueryString(b)
  {
    assert Components(a + b) == Components(a) + Components(b);
    JoinAppend(Components(a), Components(b));
  }

  lemma {:induction false} JoinAppend(a: seq<string>, b: seq<string>)
    requires a != [] && b != []
    ensures Join("&", a + b) == Join("&", a) + "&" + Join("&", b)
  {
    if |a| > 1 {
      assert (a + b)[1..] == a[1..] + b;
      JoinAppend(a[1..], b);
    } else {
      assert (a + b)[1..] == b;
    }
  }

  /** `buildSearchParams(filters)`; `None` when it throws. The query is
      empty exactly when the page skips every entry. */
  function BuildSearchParams(b: Bag): (r: Option<string>)
    ensures r.None? <==> HasSearch(b).None?
    ensures r.Some? ==> r.value == QueryString(RawPairs(b, HasSearch(b).value))
    ensures r.Some? ==>
              (r.value == "" <==> forall i :: 0 <= i < |b| ==> Silent(b[i], HasSearch(b).value))
  {
    match HasSearch(b)
    case None => None
    case Some(hasSearch) =>
      var ps := RawPairs(b, hasSearch);
      NoPairsIffSilent(b, hasSearch);
      QueryStringEmpty(ps);
      Some(QueryString(ps))
  }

  /** A bag yields no pair exactly when every entry is skipped. */
  lemma {:induction false} NoPairsIffSilent(b: Bag, hasSearch: bool)
    ensures RawPairs(b, hasSearch) == [] <==> forall i :: 0 <= i < |b| ==> Silent(b[i], hasSearch)
  {
    if b != [] {
      NoPairsIffSilent(b[1..], hasSearch);
      RawPairsCons(b, hasSearch);
      assert forall i :: 1 <= i < |b| ==> b[i] == b[1..][i - 1];
    }
  }

  /** Every component holds an `=`, so the query string is empty exactly
      when there are no pairs. */
  lemma QueryStringEmpty(ps: seq<Pair>)
    ensures QueryString(ps) == "" <==> ps == []
  {
    if ps != [] {
      var cs := Components(ps);
      assert |cs[0]| >= 1;
      if |cs| > 1 {
        assert Join("&", cs) == cs[0] + "&" + Join("&", cs[1..]);
      }
    }
  }

  /** An empty value never matters: taking an entry that holds one out of
      the bag, wherever it stands, leaves the query as it was. */
  lemma SkippedEntryChangesNothing(a: Bag, e: Entry, c: Bag)
    requires e.0 != SearchKey && IsEmptyValue(e.1)
    ensures BuildSearchParams(a + [e] + c) == BuildSearchParams(a + c)
  {
    LookupPastOther(a, e, c, SearchKey);
    if HasSearch(a + c).Some? {
      SkippedPairs(a, e, c, HasSearch(a + c).value);
    }
  }

  lemma SkippedPairs(a: Bag, e: Entry, c: Bag, hasSearch: bool)
    requires IsEmptyValue(e.1)
    ensures RawPairs(a + [e] + c, hasSearch) == RawPairs(a + c, hasSearch)
  {
    var t := [e] + c;
    assert a + [e] + c == a + t;
    RawPairsAppend(a, t, hasSearch);
    RawPairsAppend(a, c, hasSearch);
    EmptyInFront(e, c, hasSearch);
  }

  lemma EmptyInFront(e: Entry, c: Bag, hasSearch: bool)
    requires IsEmptyValue(e.1)
    ensures RawPairs([e] + c, hasSearch) == RawPairs(c, hasSearch)
  {
    var t := [e] + c;
    assert t[0] == e && t[1..] == c;
    RawPairsCons(t, hasSearch);
    assert EntryPairs(e.0, e.1, hasSearch) == [];
  }

  /** The query string of a bag whose pairs all come from its first `n`
      entries, assembled from facts about those entries. */
  lemma BuildFromPrefix(b: Bag, n: nat, hasSearch: bool, ps: seq<Pair>, q: string)
    requires HasSearch(b) == Some(hasSearch)
    requires n <= |b| && forall i :: n <= i < |b| ==> Silent(b[i], hasSearch)
    requires RawPairs(b[..n], hasSearch) == ps && QueryString(ps) == q
    ensures BuildSearchParams(b) == Some(q)
  {
    SilentSuffix(b, n, hasSearch);
  }
}

=== FILE: statistics_page.dfy ===
/** The statistics page (src/pages/StatisticsPage.tsx): the request
    parameters built from the filter controls, the error text shown when a
    fetch fails, the state a fetch leaves behind, and the default month
    text. */
module StatisticsPage {
  import opened Wrappers
  import opened Strings
  import opened JsValues

  const GenericError := "حدث خطأ ما"

  /** The request parameters, in the order their keys are added. */
  type Params = seq<(string, string)>

  function ParamKeys(ps: Params): (r: seq<string>)
    ensures |r| == |ps| && forall i :: 0 <= i < |ps| ==> r[i] == ps[i].0
  {
    seq(|ps|, i requires 0 <= i < |ps| => ps[i].0)
  }

  /** `{ period, year }`, then `month` for a monthly report, then `productId`
      when one is chosen. */
  function StatisticsParams(period: string, year: string, month: string, productId: string): (r: Params)
    ensures |r| >= 2 && r[0] == ("period", period) && r[1] == ("year", year)
    ensures "month" in ParamKeys(r) <==> period == "month"
    ensures "productId" in ParamKeys(r) <==> productId != ""
    ensures forall i :: 0 <= i < |r| && r[i].0 == "month" ==> r[i].1 == month
    ensures forall i :: 0 <= i < |r| && r[i].0 == "productId" ==> r[i].1 == productId
    ensures |r| == 2 + (if period == "month" then 1 else 0) + (if productId != "" then 1 else 0)
  {
    var monthPart := if period == "month" then [("month", month)] else [];
    var productPart := if productId != "" then [("productId", productId)] else [];
    var r := [("period", period), ("year", year)] + monthPart + productPart;
    ParamKeysOf(r, period, year, month, productId);
    r
  }

  lemma ParamKeysOf(r: Params, period: string, year: string, month: string, productId: string)
    requires r == [("period", period), ("year", year)]
                + (if period == "month" then [("month", month)] else [])
                + (if productId != "" then [("productId", productId)] else [])
    ensures ParamKeys(r) == ["period", "year"]
                + (if period == "month" then ["month"] else [])
                + (if productId != "" then ["productId"] else [])
  {
  }

  /** A yearly report with no product sends exactly the two fixed keys. */
  lemma YearlyParams(year: string, month: string)
    ensures StatisticsParams("year", year, month, "") == [("period", "year"), ("year", year)]
  {
  }

  /** `err.response?.data?.message || err.message || "حدث خطأ ما"`. Reading
      `response` of a thrown `null` or `undefined` throws out of the catch
      block, and no error text is set: `None`. */
  function ErrorText(err: Json): (r: Option<Json>)
    ensures r.None? <==> err.Undefined? || err.Null?
    ensures r.Some? ==> Truthy(r.value)
    ensures r.Some? ==>
              || r.value == Text(GenericError)
              || r.value == OptGet(OptGet(OptGet(err, "response"), "data"), "message")
              || r.value == OptGet(err, "message")
    ensures r.Some? && Truthy(OptGet(OptGet(OptGet(err, "response"), "data"), "message")) ==>
              r.value == OptGet(OptGet(OptGet(err, "response"), "data"), "message")
    ensures r.Some? && !Truthy(OptGet(OptGet(OptGet(err, "response"), "data"), "message"))
            && Truthy(OptGet(err, "message")) ==>
              r.value == OptGet(err, "message")
  {
    match Get(err, "response")
    case None => None
    case Some(response) =>
      Some(Or(Or(OptGet(OptGet(response, "data"), "message"), OptGet(err, "message")), Text(GenericError)))
  }

  /** An error that carries nothing usable shows the generic text. */
  lemma ErrorTextFallback(fields: map<string, Json>)
    requires "response" !in fields && "message" !in fields
    ensures ErrorText(Object(fields)) == Some(Text(GenericError))
  {
  }

  /** How an awaited call came back: its value, or the value it rejected with. */
  datatype Outcome = Ok(value: Json) | Fail(err: Json)

  /** The page's fetched state. `error` holds the text shown under the form. */
  datatype Stats = Stats(data: Json, products: Json, loading: bool, error: Json)

  /** `fetchStatistics`. The error is cleared first. The statistics reply's
      `data` is stored, then the products reply's `productsOptions`; a failed
      call, or a property read of a `null`/`undefined` reply (which throws
      `typeError`), stops the sequence and the error text is set from what
      was thrown. Whatever happens, loading ends. */
  function FetchStatistics(s: Stats, stats: Outcome, products: Outcome, typeError: Json): (r: Stats)
    requires typeError.Object?
    ensures !r.loading
    ensures stats.Ok? && Get(stats.value, "data").Some? && products.Ok?
            && Get(products.value, "productsOptions").Some? ==>
              r == Stats(Get(stats.value, "data").value,
                         Get(products.value, "productsOptions").value, false, Text(""))
    ensures stats.Fail? ==>
              r.data == s.data && r.products == s.products
              && r.error == ErrorText(stats.err).GetOr(Text(""))
    ensures stats.Ok? && Get(stats.value, "data").None? ==>
              r.data == s.data && r.products == s.products && r.error == ErrorText(typeError).value
    ensures stats.Ok? && Get(stats.value, "data").Some? ==>
              r.data == Get(stats.value, "data").value
    ensures stats.Ok? && Get(stats.value, "data").Some? && products.Fail? ==>
              r.products == s.products && r.error == ErrorText(products.err).GetOr(Text(""))
    ensures stats.Ok? && Get(stats.value, "data").Some? && products.Ok?
            && Get(products.value, "productsOptions").None? ==>
              r.products == s.products && r.error == ErrorText(typeError).value
  {
    var cleared := s.(loading := true, error := Text(""));
    var r :=
      match stats
      case Fail(err) => Fail(cleared, err)
      case Ok(res) =>
        match Get(res, "data")
        case None => Fail(cleared, typeError)
        case Some(data) =>
          var withData := cleared.(data := data);
          match products
          case Fail(err) => Fail(withData, err)
          case Ok(p) =>
            match Get(p, "productsOptions")
            case None => Fail(withData, typeError)
            case Some(options) => withData.(products := options);
    r.(loading := false)
  }

  /** The catch block: the error text when one can be read, otherwise the
      state as it was. */
  function Fail(s: Stats, err: Json): (r: Stats)
    ensures r.data == s.data && r.products == s.products && r.loading == s.loading
    ensures r.error == ErrorText(err).GetOr(s.error)
  {
    match ErrorText(err)
    case None => s
    case Some(text) => s.(error := text)
  }

  /** A successful fetch always clears an earlier error. */
  lemma SuccessClearsError(s: Stats, res: Json, p: Json, typeError: Json)
    requires typeError.Object? && res.Object? && p.Object?
    ensures FetchStatistics(s, Ok(res), Ok(p), typeError).error == Text("")
  {
  }

  /** The default month: `String(m).padStart(2, "0")` for the month number
      `m` (1 to 12) that the clock reports. It is two digits and reads back
      as `m`. */
  function DefaultMonth(m: nat): (r: string)
    requires 1 <= m <= 12
    ensures |r| == 2 && IsDigits(r) && DigitsValue(r) == m
    ensures m < 10 <==> r[0] == '0'
  {
    var s := IntToString(m);
    MonthDigits(m, s);
    var r := PadStart(s, 2, '0');
    if |s| == 1 then
      assert r == "0" + s;
      LeadingZero(s);
      r
    else
      assert r == s;
      r
  }

  lemma MonthDigits(m: nat, s: string)
    requires 1 <= m <= 12 && s == IntToString(m)
    ensures IsDigits(s) && DigitsValue(s) == m
    ensures |s| == 1 <==> m < 10
    ensures |s| <= 2
    ensures |s| == 2 ==> s[0] == '1'
  {
    assert s == NatToString(m);
    if m >= 10 {
      assert NatToString(m / 10) == [DigitChar(1)];
    }
  }

  /** A zero in front does not change the value of a digit. */
  lemma LeadingZero(s: string)
    requires |s| == 1 && IsDigits(s)
    ensures IsDigits("0" + s) && DigitsValue("0" + s) == DigitsValue(s)
  {
    var z := "0" + s;
    assert z[..|z| - 1] == "0";
    assert s[..|s| - 1] == [];
  }
}

=== FILE: strings.dfy ===
/** String helpers that mirror the JavaScript built-ins the dashboard relies on:
    `String.prototype.trim`, `padStart`, `toLowerCase`, `Array.prototype.join`
    and the decimal rendering `String(n)` of an integer. */
module Strings {

  /** The characters `trim` removes: WhiteSpace and LineTerminator of
      ECMA-262 (sections 12.2 and 12.3). */
  predicate IsJsWhitespace(c: char) {
    var n := c as int;
    || n == 0x09 || n == 0x0A || n == 0x0B || n == 0x0C || n == 0x0D
    || n == 0x20 || n == 0xA0 || n == 0x1680 || (0x2000 <= n <= 0x200A)
    || n == 0x2028 || n == 0x2029 || n == 0x202F || n == 0x205F
    || n == 0x3000 || n == 0xFEFF
  }

  /** Every character of `s` is whitespace (the empty string included). */
  predicate Blank(s: string) {
    forall i :: 0 <= i < |s| ==> IsJsWhitespace(s[i])
  }

  /** Drops leading whitespace: the result is the longest suffix that does not
      start with whitespace, and everything dropped was whitespace. */
  function TrimStart(s: string): (r: string)
    ensures |r| <= |s| && r == s[|s| - |r|..]
    ensures Blank(s[..|s| - |r|])
    ensures r == [] || !IsJsWhitespace(r[0])
  {
    if |s| > 0 && IsJsWhitespace(s[0]) then
      var r := TrimStart(s[1..]);
      DropOneMore(s, r);
      r
    else
      assert s[..0] == [];
      s
  }

  lemma DropOneMore(s: string, r: string)
    requires |s| > 0 && IsJsWhitespace(s[0])
    requires |r| <= |s| - 1 && r == s[1..][|s| - 1 - |r|..]
    requires Blank(s[1..][..|s| - 1 - |r|])
    ensures r == s[|s| - |r|..]
    ensures Blank(s[..|s| - |r|])
  {
    var n := |s| - |r|;
    assert s[..n] == [s[0]] + s[1..][..n - 1];
    BlankConcat([s[0]], s[1..][..n - 1]);
  }

  /** Drops trailing whitespace, symmetrically to `TrimStart`. */
  function TrimEnd(s: string): (r: string)
    ensures |r| <= |s| && r == s[..|r|]
    ensures Blank(s[|r|..])
    ensures r == [] || !IsJsWhitespace(r[|r| - 1])
  {
    if |s| > 0 && IsJsWhitespace(s[|s| - 1]) then
      var r := TrimEnd(s[..|s| - 1]);
      DropOneMoreAtEnd(s, r);
      r
    else
      assert s[|s|..] == [];
      s
  }

  lemma DropOneMoreAtEnd(s: string, r: string)
    requires |s| > 0 && IsJsWhitespace(s[|s| - 1])
    requires |r| <= |s| - 1 && r == s[..|s| - 1][..|r|]
    requires Blank(s[..|s| - 1][|r|..])
    ensures r == s[..|r|]
    ensures Blank(s[|r|..])
  {
    assert s[|r|..] == s[..|s| - 1][|r|..] + [s[|s| - 1]];
    BlankConcat(s[..|s| - 1][|r|..], [s[|s| - 1]]);
  }

  /** `s.trim()`: a slice of `s` with no whitespace at either end; it is empty
      exactly when `s` is blank. */
  function Trim(s: string): (r: string)
    ensures r == [] <==> Blank(s)
    ensures exists i, j :: 0 <= i <= j <= |s| && r == s[i..j] && Blank(s[..i]) && Blank(s[j..])
    ensures r != [] ==> !IsJsWhitespace(r[0]) && !IsJsWhitespace(r[|r| - 1])
  {
    var t := TrimStart(s);
    var r := TrimEnd(t);
    TrimSlice(s, t, r);
    r
  }

  /** `Trim` cuts a blank prefix and a blank suffix off `s`, and nothing else. */
  lemma TrimSlice(s: string, t: string, r: string)
    requires |t| <= |s| && t == s[|s| - |t|..] && Blank(s[..|s| - |t|])
    requires t == [] || !IsJsWhitespace(t[0])
    requires |r| <= |t| && r == t[..|r|] && Blank(t[|r|..])
    ensures r == s[|s| - |t|..|s| - |t| + |r|]
    ensures Blank(s[..|s| - |t|]) && Blank(s[|s| - |t| + |r|..])
    ensures r == [] <==> Blank(s)
  {
    var i := |s| - |t|;
    assert s[i..i + |r|] == r && s[i + |r|..] == t[|r|..] by {
      assert t == s[i..];
      assert r == t[..|r|];
    }
    if r == [] {
      assert Blank(s) by {
        assert t[|r|..] == t;
        assert s == s[..i] + t;
        BlankConcat(s[..i], t);
      }
    } else {
      assert !Blank(s) by {
        assert s[i] == r[0];
      }
    }
  }

  lemma BlankConcat(a: string, b: string)
    requires Blank(a) && Blank(b)
    ensures Blank(a + b)
  {
    forall k | 0 <= k < |a + b|
      ensures IsJsWhitespace((a + b)[k])
    {
      if k < |a| {
        assert (a + b)[k] == a[k];
      } else {
        assert (a + b)[k] == b[k - |a|];
      }
    }
  }

  predicate IsDigit(c: char) {
    '0' <= c <= '9'
  }

  predicate IsDigits(s: string) {
    forall i :: 0 <= i < |s| ==> IsDigit(s[i])
  }

  function DigitChar(d: nat): (c: char)
    requires d < 10
    ensures IsDigit(c) && c as int - '0' as int == d
  {
    ('0' as int + d) as char
  }

  /** The number a run of decimal digits denotes, read most significant first. */
  function DigitsValue(s: string): nat
    requires IsDigits(s)
  {
    if s == [] then 0 else DigitsValue(s[..|s| - 1]) * 10 + (s[|s| - 1] as int - '0' as int)
  }

  /** `String(n)` for a non-negative integer: decimal digits without a leading zero. */
  function NatToString(n: nat): (r: string)
    ensures |r| >= 1 && IsDigits(r)
    ensures r[0] == '0' ==> r == "0"
    ensures n > 0 ==> r[0] != '0'
    ensures n < 10 <==> |r| == 1
  {
    if n < 10 then [DigitChar(n)] else NatToString(n / 10) + [DigitChar(n % 10)]
  }

  /** Reading back the digits `NatToString` writes gives the number again. */
  lemma {:induction false} NatToStringRoundTrip(n: nat)
    ensures DigitsValue(NatToString(n)) == n
  {
    var r := NatToString(n);
    if n >= 10 {
      var p := NatToString(n / 10);
      assert r[..|r| - 1] == p;
      NatToStringRoundTrip(n / 10);
    }
  }

  /** `String(i)` for an integer: a minus sign exactly for negatives, then the
      digits of the magnitude, which read back as that magnitude. */
  function IntToString(i: int): (r: string)
    ensures |r| >= 1
    ensures r[0] == '-' <==> i < 0
    ensures i >= 0 ==> IsDigits(r) && DigitsValue(r) == i
    ensures i < 0 ==> IsDigits(r[1..]) && DigitsValue(r[1..]) == -i
    ensures i >= 0 ==> (r[0] == '0' <==> i == 0)
    ensures i == 0 ==> r == "0"
    ensures i < 0 ==> |r| >= 2 && r[1] != '0'
  {
    if i < 0 then
      NatToStringRoundTrip(-i);
      var d := NatToString(-i);
      assert ("-" + d)[1..] == d;
      "-" + d
    else
      NatToStringRoundTrip(i);
      NatToString(i)
  }

  /** `s.padStart(width, fill)` with a one-character filler: `s` is kept as the
      suffix and the filler makes up the missing length. */
  function PadStart(s: string, width: nat, fill: char): (r: string)
    ensures |r| == if |s| >= width then |s| else width
    ensures r[|r| - |s|..] == s
    ensures forall i :: 0 <= i < |r| - |s| ==> r[i] == fill
  {
    if |s| >= width then s else seq(width - |s|, _ => fill) + s
  }

  /** ASCII case mapping of `toLowerCase`. */
  function LowerChar(c: char): (r: char)
    ensures 'A' <= c <= 'Z' ==> 'a' <= r <= 'z' && r as int - c as int == 32
    ensures !('A' <= c <= 'Z') ==> r == c
  {
    if 'A' <= c <= 'Z' then (c as int + 32) as char else c
  }

  function ToLower(s: string): (r: string)
    ensures |r| == |s|
    ensures forall i :: 0 <= i < |s| ==> r[i] == LowerChar(s[i])
  {
    if s == [] then [] else [LowerChar(s[0])] + ToLower(s[1..])
  }

  /** `xs.join(sep)`. */
  function Join(sep: string, xs: seq<string>): string {
    if xs == [] then [] else if |xs| == 1 then xs[0] else xs[0] + sep + Join(sep, xs[1..])
  }
}

=== FILE: url_encoding.dfy ===
/** The two percent-encoders a query string passes through: JavaScript's
    `encodeURIComponent` (ECMA-262 section 19.2.6.5) and the
    application/x-www-form-urlencoded serializer of section 5.2 of the WHATWG
    URL Standard, which `URLSearchParams.prototype.toString` applies to every
    name and value. Both encode a character as the UTF-8 bytes of its code
    point, each written `%XX` with upper-case hex digits. */
module UrlEncoding {

  predicate IsAsciiAlnum(c: char) {
    'a' <= c <= 'z' || 'A' <= c <= 'Z' || '0' <= c <= '9'
  }

  /** Characters `encodeURIComponent` leaves alone. */
  predicate UriUnreserved(c: char) {
    IsAsciiAlnum(c) || c == '-' || c == '_' || c == '.' || c == '!' || c == '~'
    || c == '*' || c == '\'' || c == '(' || c == ')'
  }

  /** Characters the form-urlencoded serializer leaves alone. */
  predicate FormSafe(c: char) {
    IsAsciiAlnum(c) || c == '*' || c == '-' || c == '.' || c == '_'
  }

  predicate AllFormSafe(s: string) {
    forall i :: 0 <= i < |s| ==> FormSafe(s[i])
  }

  type Byte = b: nat | b < 256

  /** The UTF-8 encoding of one code point. */
  function Utf8(c: char): (r: seq<Byte>)
    ensures 1 <= |r| <= 4
    ensures |r| == 1 <==> c as int < 0x80
    ensures |r| == 1 ==> r[0] == c as int
    ensures |r| > 1 ==> forall i :: 1 <= i < |r| ==> 0x80 <= r[i] < 0xC0
  {
    var n := c as int;
    if n < 0x80 then [n]
    else if n < 0x800 then [0xC0 + n / 64, 0x80 + n % 64]
    else if n < 0x10000 then [0xE0 + n / 4096, 0x80 + (n / 64) % 64, 0x80 + n % 64]
    else [0xF0 + n / 262144, 0x80 + (n / 4096) % 64, 0x80 + (n / 64) % 64, 0x80 + n % 64]
  }

  /** The code point a well-formed UTF-8 sequence of one to four bytes denotes. */
  function Utf8Value(bs: seq<Byte>): int
    requires 1 <= |bs| <= 4
  {
    var b := seq(|bs|, i requires 0 <= i < |bs| => bs[i] as int);
    if |b| == 1 then b[0]
    else if |b| == 2 then (b[0] - 0xC0) * 64 + (b[1] - 0x80)
    else if |b| == 3 then ((b[0] - 0xE0) * 64 + (b[1] - 0x80)) * 64 + (b[2] - 0x80)
    else (((b[0] - 0xF0) * 64 + (b[1] - 0x80)) * 64 + (b[2] - 0x80)) * 64 + (b[3] - 0x80)
  }

  /** Decoding the bytes `Utf8` writes gives back the code point. */
  lemma Utf8RoundTrip(c: char)
    ensures Utf8Value(Utf8(c)) == c as int
  {
    var n := c as int;
    assert n / 64 / 64 == n / 4096;
    assert n / 4096 / 64 == n / 262144;
  }

  function HexDigit(d: nat): (c: char)
    requires d < 16
    ensures IsAsciiAlnum(c)
  {
    if d < 10 then ('0' as int + d) as char else ('A' as int + d - 10) as char
  }

  /** `%XX` for every byte, in order. */
  function PercentBytes(bs: seq<Byte>): (r: string)
    ensures |r| == 3 * |bs|
    ensures forall i :: 0 <= i < |r| ==> IsAsciiAlnum(r[i]) || r[i] == '%'
  {
    if bs == [] then []
    else ['%', HexDigit(bs[0] / 16), HexDigit(bs[0] % 16)] + PercentBytes(bs[1..])
  }

  /** `encodeURIComponent` on one character. */
  function UriChar(c: char): (r: string)
    ensures forall i :: 0 <= i < |r| ==> UriUnreserved(r[i]) || r[i] == '%'
  {
    if UriUnreserved(c) then [c] else PercentBytes(Utf8(c))
  }

  /** `encodeURIComponent(s)`: the identity on strings of unreserved
      characters; its output holds only unreserved characters and `%`. */
  function EncodeUriComponent(s: string): (r: string)
    ensures (forall i :: 0 <= i < |s| ==> UriUnreserved(s[i])) ==> r == s
    ensures forall i :: 0 <= i < |r| ==> UriUnreserved(r[i]) || r[i] == '%'
  {
    if s == [] then []
    else
      var h := UriChar(s[0]);
      var t := EncodeUriComponent(s[1..]);
      UriOutputConcat(h, t);
      h + t
  }

  /** The form-urlencoded serializer on one character. */
  function FormChar(c: char): (r: string)
    ensures forall i :: 0 <= i < |r| ==> FormSafe(r[i]) || r[i] == '%' || r[i] == '+'
  {
    if c == ' ' then "+" else if FormSafe(c) then [c] else PercentBytes(Utf8(c))
  }

  /** The form-urlencoded serializer on a string: the identity on strings of
      form-safe characters; its output holds only those, `%` and `+`. */
  function FormUrlEncode(s: string): (r: string)
    ensures AllFormSafe(s) ==> r == s
    ensures forall i :: 0 <= i < |r| ==> FormSafe(r[i]) || r[i] == '%' || r[i] == '+'
  {
    if s == [] then []
    else
      var h := FormChar(s[0]);
      var t := FormUrlEncode(s[1..]);
      FormOutputConcat(h, t);
      h + t
  }

  lemma UriOutputConcat(h: string, t: string)
    requires forall i :: 0 <= i < |h| ==> UriUnreserved(h[i]) || h[i] == '%'
    requires forall i :: 0 <= i < |t| ==> UriUnreserved(t[i]) || t[i] == '%'
    ensures forall i :: 0 <= i < |h + t| ==> UriUnreserved((h + t)[i]) || (h + t)[i] == '%'
  {
    forall i | 0 <= i < |h + t|
      ensures UriUnreserved((h + t)[i]) || (h + t)[i] == '%'
    {
      if i < |h| { assert (h + t)[i] == h[i]; } else { assert (h + t)[i] == t[i - |h|]; }
    }
  }

  lemma FormOutputConcat(h: string, t: string)
    requires forall i :: 0 <= i < |h| ==> FormSafe(h[i]) || h[i] == '%' || h[i] == '+'
    requires forall i :: 0 <= i < |t| ==> FormSafe(t[i]) || t[i] == '%' || t[i] == '+'
    ensures forall i :: 0 <= i < |h + t| ==> FormSafe((h + t)[i]) || (h + t)[i] == '%' || (h + t)[i] == '+'
  {
    forall i | 0 <= i < |h + t|
      ensures FormSafe((h + t)[i]) || (h + t)[i] == '%' || (h + t)[i] == '+'
    {
      if i < |h| { assert (h + t)[i] == h[i]; } else { assert (h + t)[i] == t[i - |h|]; }
    }
  }

  /** A name or value as it finally appears in the query string: encoded by
      `encodeURIComponent` in the page, then again by `URLSearchParams`. */
  function Enc(s: string): string {
    FormUrlEncode(EncodeUriComponent(s))
  }

  /** Both encoders leave ASCII letters, digits and `*-._` alone, so on such
      strings the double encoding is the identity. */
  lemma EncIdentityOnSafe(s: string)
    requires AllFormSafe(s)
    ensures Enc(s) == s
  {
    assert forall i :: 0 <= i < |s| ==> UriUnreserved(s[i]);
  }

  /** Every `%` the first encoder writes is encoded again by the second: a
      space comes out as `%2520`, not `%20`. */
  lemma SpaceEncodedTwice()
    ensures EncodeUriComponent(" ") == "%20"
    ensures Enc(" ") == "%2520"
  {
    SpaceEncodedOnce();
    PercentTwentyEncoded();
  }

  lemma SpaceEncodedOnce()
    ensures EncodeUriComponent(" ") == "%20"
  {
    assert EncodeUriComponent(" ") == UriChar(' ');
  }

  lemma PercentTwentyEncoded()
    ensures FormUrlEncode("%20") == "%2520"
  {
    assert FormUrlEncode("%20") == FormChar('%') + FormUrlEncode("20");
    assert FormChar('%') == "%25";
    assert FormUrlEncode("20") == "20" by {
      assert AllFormSafe("20");
    }
  }

  /** Of the characters `encodeURIComponent` leaves alone, `!~'()` are not
      form-safe, so the second encoder still changes them: `~` becomes `%7E`. */
  lemma TildeEncodedOnce()
    ensures EncodeUriComponent("~") == "~"
    ensures Enc("~") == "%7E"
  {
    assert FormUrlEncode("~") == FormChar('~');
  }
}

=== FILE: wrappers.dfy ===
/** The optional-value datatype used wherever the source has `null`, `undefined`
    or a thrown TypeError in place of a value. */
module Wrappers {

  datatype Option<+T> = None | Some(value: T) {

    /** The wrapped value, or `default` when there is none. */
    function GetOr(default: T): T {
      match this
      case Some(v) => v
      case None => default
    }
  }
}
